=== FILE: README.md ===
# Image downloader (week6.py) in Dafny

A model of the command-line image downloader in `week6.py`, with proofs.
`main` creates the `Fetched_Images` directory and then loops: it reads a URL
from the console, stops on `quit`/`exit`/`q`, re-prompts on a blank line, and
otherwise calls `download_image`. After each download it asks
"Download another image?" and goes on only on `y`.

`download_image` works in five steps:

1. It fetches the URL.
2. It asks for confirmation when the content type is not `image/...`.
3. It derives a file name from the URL path or from a time stamp and the
   content type (`get_valid_filename`).
4. It moves the name on to `<stem>_1<ext>`, `<stem>_2<ext>`, ... until no
   file exists there.
5. It streams the body into the file chunk by chunk.

The model has five modules, one per file:

- `Text` (`text.dfy`): the Python string operations the program relies on.
  These are `strip`, `lower`, `split(c)[0]`, `split(c)[-1]` and integer
  formatting, each defined with what its result means.
- `Resolver` (`resolver.dfy`): `get_valid_filename`, as pure functions and
  lemmas. The URL path and the formatted time stamp are parameters.
- `Collision` (`collision.dfy`): POSIX `os.path.splitext`, and the probe loop
  as a method. The method is proved against the function `FirstFree`.
- `Fetcher` (`fetcher.dfy`): the file system, as a class `Disk` whose `files`
  map holds every path's bytes, plus the content-type gate, the chunked
  write loop, and `download_image` itself:
  - `Download` is the specification function.
  - `DownloadImage` is the step-by-step method proved equal to it.
- `Driver` (`driver.dfy`): `main`.
  - The loop is the function `RunFrom`, over a sequence of console lines.
  - `RunSession`/`RunPass` run it on the disk, with `while` and `if`,
    proved equal to `Main`.
  - The loop lemmas are proved for any download step that behaves like
    `download_image` (`WellBehaved`). `Main` runs the loop with `Download`.

Some behaviours are modelled as the code has them:

- The extension of a fallback name is whatever follows the last `/` of the
  whole content-type header, parameters included
  (`Resolver.ExtensionAfterLastSlash`).
- The content type is lower-cased before it is used, so fallback extensions
  are lower case.
- The file is opened with `'wb'`, so the probe is the only protection against
  overwriting.
- End of input inside `download_image` (at the confirmation prompt) is caught
  by its catch-all handler and gives `None`.
- A reply with a `content-length` header that `int()` cannot read (week6.py:89) is the `Reply` variant `Unsized`. The content-type check and its prompt come first. The call then fails before the file is opened, and the catch-all handler gives `None`.
- End of input in `main` is not caught and ends the program. The model shows
  this as `Stop.InputClosed`.

## Model

| member | source | states |
|---|---|---|
| Text.Strip | week6.py:31 | `str.strip()`: the result neither starts nor ends with white space |
| Text.StripSlice | week6.py:31 | the result is the slice of the input that starts after its leading white space, and everything before and after that slice is white space |
| Text.StripTrim | week6.py:31 | any slice of the input with only white space outside it and none at its own ends is the result, so white space is removed at both ends and nowhere else |
| Text.StripFree | week6.py:31 | stripping adds no character: one missing from the input is missing from the result |
| Text.StripBlank | week6.py:148 | the stripped line is empty exactly when every character of the line is white space |
| Text.Lower | week6.py:65 | `str.lower()`: same length, each character mapped to lower case position by position |
| Text.LowerIsY | week6.py:71 | the lower-cased answer is `y` exactly when the answer is `y` or `Y` |
| Text.BeforeFirst | week6.py:41 | `split(c)[0]`: a prefix of the input free of `c`, followed in the input by `c` when shorter |
| Text.AfterLast | week6.py:29 | `split(c)[-1]`: a suffix of the input free of `c`, preceded in the input by `c` when shorter |
| Text.NatToString | week6.py:84 | the counter in `f"{name}_{counter}{ext}"`: non-empty decimal digits, no leading zero |
| Text.ParseNatToString | week6.py:84 | reading the formatted counter back gives the counter |
| Text.NatToStringInjective | week6.py:84 | different counters are formatted differently |
| Resolver.Sanitize | week6.py:45 | same length as the input; each character kept when safe, otherwise replaced by `_` |
| Resolver.SanitizeSafe | week6.py:45 | the output holds only word characters, `-`, `_` and `.`; it equals the input exactly when the input already did |
| Resolver.SanitizeIdempotent | week6.py:45 | sanitising twice is sanitising once |
| Resolver.SanitizeAppend | week6.py:45 | sanitising works character by character, so it distributes over concatenation |
| Resolver.BaseName | week6.py:23 | `os.path.basename`: the suffix of the path after its last `/` |
| Resolver.IsUsableName | week6.py:26 | the URL name is kept exactly when it is non-empty, at most 100 characters long and holds a `.` |
| Resolver.Extension | week6.py:28-33 | the fallback extension has no `/`, no `;` and no white space at either end; it is `bin` when the content type has no `/` |
| Resolver.FallbackName | week6.py:38 | the time-stamped name starts with `image_`; with a time stamp free of `/` it holds no `/`, so it stays one path segment |
| Resolver.ExtensionAfterLastSlash | week6.py:29-31 | the extension is the text after the last `/` of the whole header, cut at `;` and stripped |
| Resolver.ExtensionOfMediaType | week6.py:29-31 | for `kind/subtype` with parameters free of `/`, the extension is the stripped subtype, case kept |
| Resolver.ResolveFilename | week6.py:19-47 | whatever the inputs, the file name holds only safe characters |
| Resolver.ResolveFromUrl | week6.py:23-45 | a usable URL name (non-empty, has `.`, at most 100 long) is kept, cut at `?` and sanitised; the content type and clock do not matter; the result is at most 100 long |
| Resolver.ResolveKeepsCleanName | week6.py:23-45 | a usable last segment already made of safe characters without `?` is the file name unchanged |
| Resolver.ResolveFallback | week6.py:26-45 | otherwise the name is the `?`-cut, sanitised `image_<timestamp>.<extension>` and starts with `image_` |
| Resolver.FallbackExact | week6.py:38-45 | with a real time stamp, cutting and sanitising touch only the extension |
| Resolver.ResolveFallbackExact | week6.py:26-45 | with a real time stamp and a `?`-free extension, the name is exactly `image_<timestamp>.<sanitised extension>` |
| Resolver.ResolveFallbackMediaType | week6.py:26-45 | a URL without a usable name served as `kind/subtype` with a safe subtype is named `image_<timestamp>.<subtype>` |
| Resolver.ResolveNonEmpty | week6.py:22-47 | for a parsed URL path (no `?`) the file name is never empty |
| Collision.SplitExt | week6.py:83 | `os.path.splitext`: stem and extension concatenate to the path; the extension is empty or one `.` followed by no `.` and no `/` (when it is found: `SplitExtName`, `SplitExtNoName`) |
| Collision.SplitExtName | week6.py:83 | `dir/name.ext`, with `ext` free of `.` and `/` and some character of `name` other than `.`, splits into `dir/name` and `.ext` |
| Collision.SplitExtNoName | week6.py:83 | a last component in which no `.` follows a character other than `.` (no dot, or only leading dots as in `.bashrc`) has no extension |
| Collision.Candidate | week6.py:84 | a candidate path equals the original exactly for the first probe; the `k`-th later one is longer by `_` and the digits of `k` |
| Collision.CandidateInjective | week6.py:81-85 | the probe never looks at the same path twice |
| Collision.CandidateSplit | week6.py:83-84 | every candidate keeps the original extension and adds exactly one `_<k>` to the original stem: suffixes never pile up |
| Collision.FirstFreeFrom | week6.py:81-85 | the first free candidate index from `k` on: every index between `k` and it names an existing path |
| Collision.FirstFree | week6.py:81-85 | the index the probe stops at: its candidate is free and all earlier ones exist |
| Collision.FirstFreeExact | week6.py:81-85 | that index is unique: `_1` after one collision, `_2` after two, and so on |
| Collision.ResolveCollision | week6.py:79-85 | the `while` loop ends on a path not in the existing set; it is the original when that is free, else the first free `<stem>_<k><ext>` |
| Collision.CandidateName | week6.py:83-84 | the `k`-th later candidate of `dir/name.ext` is `dir/name_k.ext`: the counter goes between the name and its extension |
| Collision.FirstCollision | week6.py:79-85 | when `dir/name.ext` exists, the probe settles on `dir/name_1.ext` |
| Collision.SecondCollision | week6.py:79-85 | when `dir/name.ext` and `dir/name_1.ext` exist, the probe settles on `dir/name_2.ext` |
| Fetcher.Join | week6.py:77 | `os.path.join`: the joined path ends with the name |
| Fetcher.Disk.Open | week6.py:92 | `open(path, 'wb')`: the file exists and is empty; no other file changes |
| Fetcher.Disk.Write | week6.py:95 | `file.write(chunk)` appends the chunk; no other file changes |
| Fetcher.WriteChunks | week6.py:93-96 | after the loop the file holds its old bytes followed by all chunks, and `downloaded` is the number of bytes written |
| Fetcher.SaveBody | week6.py:92-96 | after the `with open` block the file holds exactly the body, and no other file changes |
| Fetcher.ConcatSize | week6.py:95-96 | the bytes written are as many as the chunk lengths add up to |
| Fetcher.ConcatNonEmpty | week6.py:94 | skipping empty chunks changes nothing in what is written |
| Fetcher.IsImageType | week6.py:68 | a content type that passes the check has the `/` of `image/` at index 5 |
| Fetcher.ImageTypeExtension | week6.py:28-31 | for a content type that passes the check, the fallback extension is the text after the last `/`, cut at `;` and stripped: the `bin` default of line 33 is never taken |
| Fetcher.TargetPath | week6.py:75-85 | the path written to never exists before the download |
| Fetcher.Download | week6.py:50-122 | a download reads at most one console line; it reads one exactly when a body or an unsized reply came back, its lowered content type does not start with `image/`, and a line is there to read |
| Fetcher.DownloadImage | week6.py:50-122 | the step-by-step download on the disk returns and leaves exactly what `Download` says |
| Fetcher.DownloadGate | week6.py:61-105 | a file is written exactly when a body was served and the content type starts with `image/` (any case) or the answer is `y`/`Y`; a path is returned exactly when a file was written and the body stream completed |
| Fetcher.DownloadNeverOverwrites | week6.py:79-96 | no existing file changes; the only new file is the returned one and it holds the served bytes |
| Fetcher.DownloadUnsized | week6.py:64-89 | a reply whose `content-length` cannot be read passes the content-type check as a served body would, reading the same console lines, and then writes nothing and returns `None` |
| Fetcher.ImageHeader | week6.py:65-68 | a header `image/<subtype>` with a lower-case subtype is unchanged by `lower()` and passes the check |
| Fetcher.HtmlIsNoImage | week6.py:65-68 | `text/html` is unchanged by `lower()` and fails the check, so the confirmation prompt is shown |
| Fetcher.UnsizedHtmlConfirmed | week6.py:64-89 | `text/html` with an unreadable `content-length`, confirmed with `y`, reads that one line and saves nothing |
| Fetcher.DownloadServedImage | week6.py:64-105 | a complete image body is saved at the target path without a question asked |
| Fetcher.DownloadConfirmed | week6.py:65-105 | for a content type that fails the check, the answer `y` or `Y` is read and the body is saved at the target path of the lowered content type; the path is returned when the body stream completed |
| Fetcher.DownloadDeclined | week6.py:68-73 | for a content type that fails the check, any other answer is read as well, and nothing is written or returned |
| Fetcher.TargetPathWhenEmpty | week6.py:76-85 | in an empty directory the target is the resolved name itself |
| Fetcher.CatPictureSaved | week6.py:50-105 | `/pics/cat.jpg` served as `image/jpeg` into an empty directory is saved as `Fetched_Images/cat.jpg` holding the body |
| Fetcher.CatPictureSecondCopy | week6.py:75-85 | with `Fetched_Images/cat.jpg` present, `/pics/cat.jpg` goes to `Fetched_Images/cat_1.jpg` |
| Fetcher.CatPictureThirdCopy | week6.py:75-85 | with `cat.jpg` and `cat_1.jpg` present, it goes to `Fetched_Images/cat_2.jpg` |
| Fetcher.CatPictureSavedAgain | week6.py:50-105 | downloading `/pics/cat.jpg` again keeps the earlier `cat.jpg` and saves the new body as `Fetched_Images/cat_1.jpg` |
| Fetcher.RenderedPictureName | week6.py:26-45 | `/render` served as `image/png` gets the name `image_<timestamp>.png` |
| Fetcher.RenderedPictureSaved | week6.py:50-105 | that download returns `Fetched_Images/image_<timestamp>.png` |
| Driver.Fetch | week6.py:153 | `download_image` as `main` calls it keeps every file, reads at most the next line, and reports only files it created |
| Driver.LineAfter | week6.py:70 | the confirmation prompt reads the next console line exactly when there is one |
| Driver.IsQuit | week6.py:142-144 | a line that ends the session strips to one to four characters: a blank line or a longer URL never quits |
| Driver.Resume | week6.py:161-164 | after a download the loop goes on exactly when the next line lower-cases to `y`; on any other line it ends `Declined` after that line, and with no line left it ends `InputClosed`; the download is recorded in every case |
| Driver.OnePass | week6.py:140-164 | one round reads at least one line, ends only on a quit word, a refusal or end of input, records at most one download (two lines each when the loop goes on), keeps old files and reports only new ones |
| Driver.RunFrom | week6.py:140-164 | the `while True` loop started at any line ends, having read on from that line to at most the end of the input |
| Driver.Main | week6.py:133-164 | the program stops before reading input exactly when the directory cannot be created; otherwise the session reads within the input |
| Driver.DownloadThenAsk | week6.py:152-164 | a URL line is downloaded; then `y` or `Y` goes on with the next URL prompt after the answer, any other answer ends the session `Declined` after it, and no answer left ends it `InputClosed` |
| Driver.SpacedYesDeclines | week6.py:161-164 | the answer is not stripped, so ` y` ends the session `Declined` |
| Driver.DownloadLine | week6.py:153 | on the disk, `download_image` on the stripped URL does and returns what the step `Fetch` says for the files before it |
| Driver.DownloadPass | week6.py:152-164 | on the disk, a download round is the step's outcome followed by `Resume` |
| Driver.RunPass | week6.py:140-164 | on the disk, one round of `while True` gives what `OnePass` says and leaves the files it says |
| Driver.RunSession | week6.py:125-164 | on the disk, `main` gives what `Main` says and leaves the files of the session |
| Driver.RunFromKeepsFiles | week6.py:140-164 | a session only appends results and never changes a file that existed before it |
| Driver.RunFromSavedPaths | week6.py:152-164 | every path a session reports is a file it created, and no two downloads report the same path |
| Driver.RunFromStop | week6.py:142-164 | every session ends on a quit word (the last line read), on a non-`y` answer (the last line read), or with all input read |
| Driver.RunFromDownloads | week6.py:152-164 | each download but the last costs at least two lines; a refusal follows a download |
| Driver.BlankLineSkipped | week6.py:148-150 | a line of white space only is skipped without effect |
| Driver.QuitEndsSession | week6.py:142-146 | `quit`, `exit` or `q` in any case with any surrounding white space ends the session at once with nothing downloaded |
| Driver.MainNeverOverwrites | week6.py:133-164 | `main` never changes an existing file, every saved path is new, and no two saved paths coincide |
| Driver.MainStops | week6.py:133-164 | `main` ends properly, with at most one download per two lines read plus one, and a refusal only after a download |
| Driver.PlainUrlLine | week6.py:142-150 | `http://a/b` is unchanged by stripping and is not a quit word |
| Driver.UnsizedPageAttempt | week6.py:50-89 | a server answering `text/html` with an unreadable `content-length`, confirmed with `y`, gives a download that reads one line and saves nothing |
| Driver.ConfirmedThenDeclined | week6.py:152-164 | a URL, a confirming answer and then an answer other than `y`: when the download saves nothing, the session ends `Declined` after the three lines with the files unchanged |
| Driver.UnsizedPageDeclined | week6.py:50-164 | the lines `http://a/b`, `y`, `n` against that server end `Declined` after all three lines, with one failed download and the files unchanged |

## Left out

- The HTTP request is left out: the `User-Agent` header, the 15-second timeout, `raise_for_status`, redirects and `iter_content`'s chunk size (week6.py:56-62, 93). The server is the `Reply` parameter: a refusal with its error kind, a content type and the chunks actually delivered, or a content type with an unreadable length.
- Printed messages are left out: progress, the error texts of week6.py:107-120, and the file size from `os.path.getsize`. The exception-to-message mapping only prints, so every error is just `None`.
- The progress percentage (week6.py:97-99) is floating point and only printed.
- `urlparse` (week6.py:22) is a library call. The URL's path is a parameter: `pathOf` in `Driver`, `urlPath` elsewhere. So `urlparse` raising inside `get_valid_filename`, after the content-type check, is not modelled.
- `datetime.now().strftime` (week6.py:37) reads the clock. The time stamp is a parameter.
- `os.makedirs` (week6.py:8-16) is a file-system effect. Its success is the boolean `directoryReady`.
- `os.path.exists` is true for directories as well as files. In the model, only the paths in `Disk.files` exist. The usable names `.` and `..` (from URLs such as `http://h/a/..`) therefore differ: in Python `Fetched_Images/..` exists, `splitext` gives no extension, and the probe moves on to `Fetched_Images/.._1` (week6.py:82-84). The model writes to `Fetched_Images/..` itself, and `TargetPath` counts that path as free.
- Python's `\w`, `str.lower()` and `str.isspace()` are Unicode-aware. The model uses the ASCII word characters and ASCII case mapping. White space is Python's set up to U+3000.
- The `content-length` value is not modelled, only whether `int()` can read it. A readable length only feeds the printed progress. An unreadable one is the `Unsized` reply (week6.py:89).
- `requests.get` can raise on a malformed URL before any content type is read. Such a failure is a `Refused` reply.
- Failures while writing (`IOError`, week6.py:117) are not modelled. A body stream that breaks after some chunks is modelled: the partial file stays and the result is `None`.
- The unused numpy/matplotlib/pandas imports and the `ImportError` guard around `main` (week6.py:1, 167-175) are left out.
- `KeyboardInterrupt` is not modelled.
- Resolver.ResolveNonEmpty: requires a URL path without `?`. A path that `urlparse` returns never holds one, because the query is split off.

=== FILE: collision.dfy ===
/** The name-collision loop of `download_image` (week6.py:79-85): keep the
    path if nothing exists there, otherwise try `<stem>_1<ext>`,
    `<stem>_2<ext>`, ... where `<stem>` and `<ext>` always come from
    `os.path.splitext` of the ORIGINAL path. What exists on disk is given
    as a finite set of paths. */
module Collision {
  import opened Text

  /** Whether some character of `p[lo..hi]` is not a `.`. */
  predicate HasNonDot(p: string, lo: int, hi: int)
    requires 0 <= lo <= hi <= |p|
  {
    exists i :: lo <= i < hi && p[i] != '.'
  }

  /** POSIX `os.path.splitext`: the extension is the text from the last `.`
      of the last path component on, unless everything before that `.` in
      the component is dots (so `.bashrc` has no extension). */
  function SplitExt(p: string): (parts: (string, string))
    ensures parts.0 + parts.1 == p
    ensures parts.1 == [] || (parts.1[0] == '.' && '.' !in parts.1[1..] && '/' !in parts.1)
  {
    var sep := LastIndexOf(p, '/');
    var dot := LastIndexOf(p, '.');
    if dot > sep && HasNonDot(p, sep + 1, dot) then
      assert p[dot..][1..] == p[dot + 1..];
      (p[..dot], p[dot..])
    else
      (p, [])
  }

  /** The last `/` of `dir/rest` is the one after `dir` when `rest` has
      none. */
  lemma LastSlashAfterDir(dir: string, rest: string)
    requires '/' !in rest
    ensures LastIndexOf(dir + "/" + rest, '/') == |dir|
  {
    LastIndexOfAppendHit(dir, "/", '/');
    LastIndexOfAppendFree(dir + "/", rest, '/');
  }

  /** A file name with a character other than `.` before its last `.` has
      an extension: the text from that `.` on. So `dir/cat.jpg` splits into
      `dir/cat` and `.jpg`. */
  lemma SplitExtName(dir: string, name: string, ext: string)
    requires '/' !in name && '/' !in ext && '.' !in ext
    requires exists i :: 0 <= i < |name| && name[i] != '.'
    ensures SplitExt(dir + "/" + name + "." + ext) == (dir + "/" + name, "." + ext)
  {
    var head := dir + "/" + name;
    var p := head + "." + ext;
    assert '/' !in name + "." + ext;
    assert p == dir + "/" + (name + "." + ext);
    LastSlashAfterDir(dir, name + "." + ext);
    LastIndexOfAppendHit(head, ".", '.');
    LastIndexOfAppendFree(head + ".", ext, '.');
    var w :| 0 <= w < |name| && name[w] != '.';
    assert p[|dir| + 1 + w] == name[w];
    assert HasNonDot(p, |dir| + 1, |head|);
    assert p[..|head|] == head && p[|head|..] == "." + ext;
  }

  /** A file name in which no `.` follows a character other than `.` (no
      `.` at all, or only leading dots as in `.bashrc`) has no extension. */
  lemma SplitExtNoName(dir: string, name: string)
    requires '/' !in name
    requires forall i, j :: 0 <= j < i < |name| && name[i] == '.' ==> name[j] == '.'
    ensures SplitExt(dir + "/" + name) == (dir + "/" + name, [])
  {
    var p := dir + "/" + name;
    LastSlashAfterDir(dir, name);
    var sep, dot := |dir|, LastIndexOf(p, '.');
    if dot > sep && HasNonDot(p, sep + 1, dot) {
      assert false;
    }
  }

  /** The k-th path the loop looks at: the original path itself for k = 0,
      and `f"{name}_{k}{ext}"` after `name, ext = splitext(original)` for
      k >= 1. */
  function Candidate(original: string, k: nat): (path: string)
    ensures path == original <==> k == 0
    ensures k > 0 ==> |path| == |original| + 1 + |NatToString(k)|
  {
    if k == 0 then original
    else
      var parts := SplitExt(original);
      parts.0 + "_" + NatToString(k) + parts.1
  }

  /** The loop never looks at the same path twice. */
  lemma CandidateInjective(original: string, i: nat, j: nat)
    requires Candidate(original, i) == Candidate(original, j)
    ensures i == j
  {
    var parts := SplitExt(original);
    var stem, ext := parts.0, parts.1;
    if i != 0 && j != 0 {
      var a, b := NatToString(i), NatToString(j);
      var c := Candidate(original, i);
      assert c == stem + "_" + a + ext;
      assert c == stem + "_" + b + ext;
      assert |a| == |b|;
      assert a == c[|stem| + 1..|stem| + 1 + |a|];
      assert b == c[|stem| + 1..|stem| + 1 + |b|];
      NatToStringInjective(i, j);
    }
  }

  /** Appending text with no `.` and no `/` to a path without extension
      gives a path without extension. */
  lemma SplitExtAppendPlain(p: string, tag: string)
    requires SplitExt(p).1 == []
    requires '.' !in tag && '/' !in tag
    ensures SplitExt(p + tag) == (p + tag, [])
  {
    LastIndexOfAppendFree(p, tag, '/');
    LastIndexOfAppendFree(p, tag, '.');
  }

  /** Inserting text with no `.` and no `/` just before an extension keeps
      that extension. */
  lemma SplitExtInsert(stem: string, tag: string, ext: string)
    requires SplitExt(stem + ext) == (stem, ext) && ext != []
    requires '.' !in tag && '/' !in tag
    ensures SplitExt(stem + tag + ext) == (stem + tag, ext)
  {
    var p := stem + ext;
    var sep, dot := LastIndexOf(p, '/'), LastIndexOf(p, '.');
    assert dot == |stem| && HasNonDot(p, sep + 1, dot);
    var i :| sep + 1 <= i < dot && p[i] != '.';
    assert p[i] == stem[i];
    LastIndexOfAppendFree(stem, ext, '/');
    var c := (stem + tag) + ext;
    LastIndexOfAppendFree(stem, tag, '/');
    LastIndexOfAppendFree(stem + tag, ext, '/');
    assert LastIndexOf(c, '/') == sep;
    assert ext[0] == '.';
    LastIndexOfAppendHit(stem + tag, ext, '.');
    assert c[i] == stem[i];
    assert HasNonDot(c, sep + 1, |stem + tag|);
    assert c[..|stem + tag|] == stem + tag;
    assert c[|stem + tag|..] == ext;
  }

  /** The tag `_<k>` holds no `.` and no `/`. */
  lemma TagPlain(k: nat)
    ensures '.' !in "_" + NatToString(k) && '/' !in "_" + NatToString(k)
  {
    var tag := "_" + NatToString(k);
    forall i | 0 <= i < |tag| ensures tag[i] != '.' && tag[i] != '/' {
      if i > 0 {
        assert tag[i] == NatToString(k)[i - 1];
      }
    }
  }

  /** Every candidate but the original keeps the original's extension and
      adds exactly one `_<k>` to its stem: suffixes never pile up. */
  lemma CandidateSplit(original: string, k: nat)
    requires k >= 1
    ensures SplitExt(Candidate(original, k))
         == (SplitExt(original).0 + "_" + NatToString(k), SplitExt(original).1)
  {
    var stem, ext := SplitExt(original).0, SplitExt(original).1;
    var tag := "_" + NatToString(k);
    TagPlain(k);
    Regroup3(stem, "_", NatToString(k));
    if ext == [] {
      assert stem == original && stem + tag + ext == original + tag;
      SplitExtAppendPlain(original, tag);
    } else {
      assert SplitExt(stem + ext) == (stem, ext);
      SplitExtInsert(stem, tag, ext);
    }
  }

  /** Moving the brackets of a three-part concatenation. */
  lemma Regroup3(h: string, u: string, d: string)
    ensures h + u + d == h + (u + d)
  {
  }

  /** The candidates with index below `n`. */
  ghost function Tried(original: string, n: nat): set<string>
  {
    set j: nat | j < n :: Candidate(original, j)
  }

  /** Each existing candidate the loop steps past leaves one existing path
      fewer to step past: the measure of the loop. */
  lemma TriedGrows(original: string, existing: set<string>, k: nat)
    requires Candidate(original, k) in existing
    ensures |existing - Tried(original, k + 1)| < |existing - Tried(original, k)|
  {
    var c := Candidate(original, k);
    assert Tried(original, k + 1) == Tried(original, k) + {c};
    assert c !in Tried(original, k) by {
      forall j: nat | j < k ensures Candidate(original, j) != c {
        if Candidate(original, j) == c {
          CandidateInjective(original, j, k);
        }
      }
    }
    assert existing - Tried(original, k) == (existing - Tried(original, k + 1)) + {c};
  }

  /** The first index from `k` on whose candidate does not exist. */
  function FirstFreeFrom(original: string, existing: set<string>, k: nat): (r: nat)
    ensures k <= r
    ensures Candidate(original, r) !in existing
    ensures forall j :: k <= j < r ==> Candidate(original, j) in existing
    decreases |existing - Tried(original, k)|
  {
    if Candidate(original, k) !in existing then k
    else
      TriedGrows(original, existing, k);
      FirstFreeFrom(original, existing, k + 1)
  }

  /** The index of the path the loop settles on. */
  function FirstFree(original: string, existing: set<string>): (r: nat)
    ensures Candidate(original, r) !in existing
    ensures forall j :: 0 <= j < r ==> Candidate(original, j) in existing
  {
    FirstFreeFrom(original, existing, 0)
  }

  /** The least free index is the only one with that property: the probe
      gives `_1` after one collision, `_2` after two, and so on. */
  lemma FirstFreeExact(original: string, existing: set<string>, k: nat)
    requires Candidate(original, k) !in existing
    requires forall j :: 0 <= j < k ==> Candidate(original, j) in existing
    ensures FirstFree(original, existing) == k
  {
  }

  /** The tags the first two later candidates insert. */
  lemma CounterTags()
    ensures "_" + NatToString(1) + "." == "_1."
    ensures "_" + NatToString(2) + "." == "_2."
  {
    assert NatToString(1) == "1" && NatToString(2) == "2";
  }

  /** For `dir/name.ext` with an extension, the k-th candidate is
      `dir/name_k.ext`: the tag `_k` goes between the name and its
      extension. */
  lemma CandidateName(dir: string, name: string, ext: string, k: nat)
    requires '/' !in name && '/' !in ext && '.' !in ext
    requires exists i :: 0 <= i < |name| && name[i] != '.'
    requires k >= 1
    ensures Candidate(dir + "/" + name + "." + ext, k)
         == dir + "/" + name + ("_" + NatToString(k) + ".") + ext
  {
    SplitExtName(dir, name, ext);
    Regroup(dir + "/" + name, "_", NatToString(k), ".", ext);
  }

  /** Moving the brackets of a five-part concatenation. */
  lemma Regroup(h: string, u: string, d: string, t: string, e: string)
    ensures h + u + d + (t + e) == h + (u + d + t) + e
  {
  }

  /** When `dir/name.ext` exists, the probe settles on `dir/name_1.ext`. */
  lemma FirstCollision(dir: string, name: string, ext: string)
    requires '/' !in name && '/' !in ext && '.' !in ext
    requires exists i :: 0 <= i < |name| && name[i] != '.'
    ensures var p := dir + "/" + name + "." + ext;
      Candidate(p, FirstFree(p, {p})) == dir + "/" + name + "_1." + ext
  {
    var p := dir + "/" + name + "." + ext;
    CandidateName(dir, name, ext, 1);
    CounterTags();
    FirstFreeExact(p, {p}, 1);
  }

  /** When `dir/name.ext` and `dir/name_1.ext` exist, the probe settles on
      `dir/name_2.ext`. */
  lemma SecondCollision(dir: string, name: string, ext: string)
    requires '/' !in name && '/' !in ext && '.' !in ext
    requires exists i :: 0 <= i < |name| && name[i] != '.'
    ensures var p := dir + "/" + name + "." + ext;
      var existing := {p, dir + "/" + name + "_1." + ext};
      Candidate(p, FirstFree(p, existing)) == dir + "/" + name + "_2." + ext
  {
    var p := dir + "/" + name + "." + ext;
    CandidateName(dir, name, ext, 1);
    CandidateName(dir, name, ext, 2);
    CounterTags();
    if Candidate(p, 2) == Candidate(p, 1) {
      CandidateInjective(p, 2, 1);
    }
    FirstFreeExact(p, {p, Candidate(p, 1)}, 2);
  }

  /** week6.py:80-85 as written: probe until a free path turns up. The
      result is free, is the original when the original is free, and is
      otherwise the first free `<stem>_<k><ext>`, every earlier candidate
      existing. */
  method ResolveCollision(original: string, existing: set<string>) returns (path: string)
    ensures path !in existing
    ensures original !in existing ==> path == original
    ensures path == Candidate(original, FirstFree(original, existing))
  {
    var counter := 1;
    path := original;
    while path in existing
      invariant counter >= 1
      invariant path == Candidate(original, counter - 1)
      invariant FirstFreeFrom(original, existing, counter - 1) == FirstFree(original, existing)
      decreases |existing - Tried(original, counter - 1)|
    {
      TriedGrows(original, existing, counter - 1);
      var parts := SplitExt(original);
      path := parts.0 + "_" + NatToString(counter) + parts.1;
      counter := counter + 1;
    }
  }
}

=== FILE: driver.dfy ===
/** `main` (week6.py:125-164): after the download directory is made, read a
    URL per round, stop on a quit word, re-prompt on a blank line, otherwise
    download and ask whether to go on. The console is the sequence of lines
    the user types; URL parsing, the server and the clock are parameters.
    The loop is written for any download `Step` that behaves as
    `download_image` does (`WellBehaved`); `Main` runs it with `Download`. */
module Driver {
  import opened Text
  import opened Fetcher

  /** Why the session ended. `InputClosed` is the `EOFError` that `input`
      raises at the end of the console input and that `main` does not
      catch. */
  datatype Stop = Quit | Declined | InputClosed

  /** How a session ends: why, how many console lines it read, what each
      `download_image` call returned, and the files afterwards. */
  datatype Session = Session(stop: Stop, consumed: nat, results: seq<Option<string>>,
                             files: map<string, seq<byte>>)

  /** What `main` comes to: the early return when the download directory
      cannot be created, or a session. */
  datatype Outcome = NoDirectory | Ran(session: Session)

  /** The words that end the session, compared after stripping and
      lower-casing. */
  const QuitWords: seq<string> := ["quit", "exit", "q"]

  /** The URL prompt's line asks to end the session. */
  predicate IsQuit(line: string)
    ensures IsQuit(line) ==> 1 <= |Strip(line)| <= 4
  {
    Lower(Strip(line)) in QuitWords
  }

  /** A session ended as `main` lets it end: on a quit word, which is the
      last line it read; on an answer other than `y` (in any case) to
      "Download another image?", which is the last line it read; or at the
      end of the input, every line read. */
  predicate ProperEnd(lines: seq<string>, s: Session)
  {
    && s.consumed <= |lines|
    && (s.stop == Quit ==> 0 < s.consumed && IsQuit(lines[s.consumed - 1]))
    && (s.stop == Declined ==> 0 < s.consumed && Lower(lines[s.consumed - 1]) != "y")
    && (s.stop == InputClosed ==> s.consumed == |lines|)
  }

  /** A download step: the n-th download, for the line typed at the URL
      prompt, with the files before it and the console line after that one
      (`None` at the end of the input). */
  type Step = (nat, string, map<string, seq<byte>>, Option<string>) -> Attempt

  /** What the loop relies on from a download step: it reads at most the one
      line after the URL and only when there is one, keeps every existing
      file, and a path it returns is a file it created. */
  ghost predicate WellBehaved(step: Step)
  {
    forall n, line, files, answer ::
      var a := step(n, line, files, answer);
      && a.answersRead <= 1
      && (a.answersRead == 1 ==> answer.Some?)
      && (forall p :: p in files ==> p in a.files && a.files[p] == files[p])
      && (a.saved.Some? ==> a.saved.value !in files && a.saved.value in a.files)
  }

  /** `download_image(url, download_dir)` as `main` calls it: the n-th
      download, the server and the clock consulted for that call. */
  function Fetch(pathOf: string -> string, reply: (nat, string) -> Reply, clock: nat -> string): (step: Step)
    ensures WellBehaved(step)
  {
    var step := (n: nat, line: string, files: map<string, seq<byte>>, answer: Option<string>) =>
      Download(files, pathOf(Strip(line)), reply(n, Strip(line)), answer, clock(n));
    assert WellBehaved(step) by {
      forall n, line, files, answer {
        DownloadNeverOverwrites(files, pathOf(Strip(line)), reply(n, Strip(line)), answer, clock(n));
      }
    }
    step
  }

  /** The console line after the URL's, which the confirmation prompt of
      the download would read (`None` at the end of the input). */
  function LineAfter(lines: seq<string>, pos: nat): (answer: Option<string>)
    ensures answer.Some? <==> pos + 1 < |lines|
    ensures answer.Some? ==> answer.value == lines[pos + 1]
  {
    if pos + 1 < |lines| then Some(lines[pos + 1]) else None
  }

  /** Where one pass of the loop body leads: the session ends, or the loop
      goes round again at a later line with the results and files so far. */
  datatype Pass = Ended(session: Session)
                | Again(pos: nat, results: seq<Option<string>>, files: map<string, seq<byte>>)

  /** The end of a pass that made a download: the answer to "Download
      another image?" is on line `next`, unless the input ended there. */
  function Resume(lines: seq<string>, next: nat, results: seq<Option<string>>, saved: Option<string>,
                  after: map<string, seq<byte>>): (p: Pass)
    requires 0 < next <= |lines|
    ensures p.Again? <==> next < |lines| && Lower(lines[next]) == "y"
    ensures next < |lines| && Lower(lines[next]) != "y" ==>
      p == Ended(Session(Declined, next + 1, results + [saved], after))
    ensures next == |lines| ==> p == Ended(Session(InputClosed, next, results + [saved], after))
    ensures p.Again? ==> p == Again(next + 1, results + [saved], after) && next < |lines|
    ensures p.Ended? ==> && p.session.results == results + [saved] && p.session.files == after
                         && p.session.stop != Quit && next <= p.session.consumed
                         && ProperEnd(lines, p.session)
  {
    if next == |lines| then Ended(Session(InputClosed, next, results + [saved], after))
    else if Lower(lines[next]) == "y" then Again(next + 1, results + [saved], after)
    else Ended(Session(Declined, next + 1, results + [saved], after))
  }

  /** One pass of the body of `while True` in `main`, from the URL prompt
      reading line `pos`. It reads at least one line; it ends the session
      only on a quit word, on an answer other than `y` after a download, or
      at the end of the input; it makes at most one download, which costs
      two lines when the loop goes on; it keeps every existing file and a
      path it reports is a file it created. */
  function OnePass(step: Step, lines: seq<string>, pos: nat, results: seq<Option<string>>,
                   files: map<string, seq<byte>>): (p: Pass)
    requires WellBehaved(step) && pos < |lines|
    ensures p.Again? ==> pos < p.pos <= |lines|
    ensures p.Ended? ==> pos < p.session.consumed <= |lines|
    ensures var (r, f) := if p.Again? then (p.results, p.files) else (p.session.results, p.session.files);
      && (r == results || (|r| == |results| + 1 && r[..|results|] == results))
      && (forall q :: q in files ==> q in f && f[q] == files[q])
      && (|r| > |results| && r[|results|].Some? ==> r[|results|].value in f && r[|results|].value !in files)
    ensures p.Again? ==> 2 * (|p.results| - |results|) <= p.pos - pos
    ensures p.Ended? ==> ProperEnd(lines, p.session)
    ensures p.Ended? && p.session.stop == Quit ==> p.session.results == results
    ensures p.Ended? && p.session.stop == Declined ==> |p.session.results| == |results| + 1
  {
    if IsQuit(lines[pos]) then Ended(Session(Quit, pos + 1, results, files))
    else if Strip(lines[pos]) == [] then Again(pos + 1, results, files)
    else
      var a := step(|results|, lines[pos], files, LineAfter(lines, pos));
      assert a.answersRead <= 1 && (a.answersRead == 1 ==> pos + 1 < |lines|);
      assert forall q :: q in files ==> q in a.files && a.files[q] == files[q];
      assert a.saved.Some? ==> a.saved.value !in files && a.saved.value in a.files;
      assert (results + [a.saved])[..|results|] == results;
      Resume(lines, pos + 1 + a.answersRead, results, a.saved, a.files)
  }

  /** A pass on a line that is neither a quit word nor blank makes one
      download and goes on as `Resume` says. */
  lemma OnePassDownloads(step: Step, lines: seq<string>, pos: nat, results: seq<Option<string>>,
                         files: map<string, seq<byte>>)
    requires WellBehaved(step) && pos < |lines|
    requires !IsQuit(lines[pos]) && Strip(lines[pos]) != []
    ensures var a := step(|results|, lines[pos], files, LineAfter(lines, pos));
      pos + 1 + a.answersRead <= |lines|
      && OnePass(step, lines, pos, results, files) == Resume(lines, pos + 1 + a.answersRead, results, a.saved, a.files)
  {
  }

  /** The loop of `main` from console line `pos` on, with the results of the
      downloads so far and the current files; `input` raising `EOFError`
      at the end of the input ends it. */
  function RunFrom(step: Step, lines: seq<string>, pos: nat, results: seq<Option<string>>,
                   files: map<string, seq<byte>>): (s: Session)
    requires WellBehaved(step) && pos <= |lines|
    ensures pos <= s.consumed <= |lines|
    decreases |lines| - pos
  {
    if pos == |lines| then Session(InputClosed, pos, results, files)
    else
      match OnePass(step, lines, pos, results, files)
      case Ended(s) => s
      case Again(next, more, after) => RunFrom(step, lines, next, more, after)
  }

  /** The whole of `main`: nothing is read or written when the directory is
      not ready, and otherwise the session runs from the first line. */
  function Main(pathOf: string -> string, reply: (nat, string) -> Reply, clock: nat -> string,
                directoryReady: bool, lines: seq<string>, files: map<string, seq<byte>>): (o: Outcome)
    ensures o.NoDirectory? <==> !directoryReady
    ensures o.Ran? ==> o.session.consumed <= |lines|
  {
    if directoryReady then Ran(RunFrom(Fetch(pathOf, reply, clock), lines, 0, [], files))
    else NoDirectory
  }

  /** A line that is neither a quit word nor blank makes exactly one
      download, the step on that line with the files so far and the line
      after it, and its result is appended to the results. Then the answer
      to "Download another image?" decides: exactly `y` or `Y` goes on at
      the line after the answer; any other line (` y` and `yes` included)
      ends the session there; no line left ends it with the input. */
  lemma DownloadThenAsk(step: Step, lines: seq<string>, pos: nat, results: seq<Option<string>>,
                        files: map<string, seq<byte>>)
    requires WellBehaved(step) && pos < |lines|
    requires !IsQuit(lines[pos]) && Strip(lines[pos]) != []
    ensures var a := step(|results|, lines[pos], files, LineAfter(lines, pos));
      var next := pos + 1 + a.answersRead;
      && next <= |lines|
      && (next < |lines| && (lines[next] == "y" || lines[next] == "Y") ==>
            RunFrom(step, lines, pos, results, files)
              == RunFrom(step, lines, next + 1, results + [a.saved], a.files))
      && (next < |lines| && lines[next] != "y" && lines[next] != "Y" ==>
            RunFrom(step, lines, pos, results, files)
              == Session(Declined, next + 1, results + [a.saved], a.files))
      && (next == |lines| ==>
            RunFrom(step, lines, pos, results, files)
              == Session(InputClosed, next, results + [a.saved], a.files))
  {
    OnePassDownloads(step, lines, pos, results, files);
    var a := step(|results|, lines[pos], files, LineAfter(lines, pos));
    var next := pos + 1 + a.answersRead;
    if next < |lines| {
      LowerIsY(lines[next]);
    }
  }

  /** The answer to "Download another image?" is lower-cased but not
      stripped, so ` y` (with a leading space) ends the session. */
  lemma SpacedYesDeclines(step: Step, lines: seq<string>, pos: nat, results: seq<Option<string>>,
                          files: map<string, seq<byte>>)
    requires WellBehaved(step) && pos < |lines|
    requires !IsQuit(lines[pos]) && Strip(lines[pos]) != []
    requires var a := step(|results|, lines[pos], files, LineAfter(lines, pos));
      var next := pos + 1 + a.answersRead;
      next < |lines| && lines[next] == " y"
    ensures var a := step(|results|, lines[pos], files, LineAfter(lines, pos));
      var next := pos + 1 + a.answersRead;
      RunFrom(step, lines, pos, results, files) == Session(Declined, next + 1, results + [a.saved], a.files)
  {
    DownloadThenAsk(step, lines, pos, results, files);
    assert |" y"| == 2;
  }

  /** `download_image(url, download_dir)` on the disk, for the line typed at
      the URL prompt: what it does is the step's outcome. */
  method DownloadLine(disk: Disk, pathOf: string -> string, reply: (nat, string) -> Reply, clock: nat -> string,
                      n: nat, line: string, answer: Option<string>)
    returns (saved: Option<string>, answersRead: nat)
    modifies disk
    ensures Attempt(saved, disk.files, answersRead) == Fetch(pathOf, reply, clock)(n, line, old(disk.files), answer)
  {
    var url := Strip(line);
    saved, answersRead := DownloadImage(disk, pathOf(url), reply(n, url), answer, clock(n));
  }

  /** A pass on a line that is neither a quit word nor blank, on the disk:
      download, then the "Download another image?" prompt. */
  method DownloadPass(disk: Disk, pathOf: string -> string, reply: (nat, string) -> Reply, clock: nat -> string,
                      lines: seq<string>, pos: nat, results: seq<Option<string>>)
    returns (pass: Pass)
    requires pos < |lines|
    modifies disk
    ensures var a := Fetch(pathOf, reply, clock)(|results|, lines[pos], old(disk.files), LineAfter(lines, pos));
      && pos + 1 + a.answersRead <= |lines|
      && pass == Resume(lines, pos + 1 + a.answersRead, results, a.saved, a.files)
    ensures disk.files == if pass.Again? then pass.files else pass.session.files
  {
    var saved, answersRead := DownloadLine(disk, pathOf, reply, clock, |results|, lines[pos], LineAfter(lines, pos));
    pass := Resume(lines, pos + 1 + answersRead, results, saved, disk.files);
  }

  /** One pass of the body of `while True` on the disk, from the URL
      prompt reading line `pos`. */
  method RunPass(disk: Disk, pathOf: string -> string, reply: (nat, string) -> Reply, clock: nat -> string,
                 lines: seq<string>, pos: nat, results: seq<Option<string>>)
    returns (pass: Pass)
    requires pos < |lines|
    modifies disk
    ensures pass == OnePass(Fetch(pathOf, reply, clock), lines, pos, results, old(disk.files))
    ensures disk.files == if pass.Again? then pass.files else pass.session.files
  {
    if IsQuit(lines[pos]) {
      return Ended(Session(Quit, pos + 1, results, disk.files));
    }
    if Strip(lines[pos]) == [] {
      return Again(pos + 1, results, disk.files);
    }
    OnePassDownloads(Fetch(pathOf, reply, clock), lines, pos, results, disk.files);
    pass := DownloadPass(disk, pathOf, reply, clock, lines, pos, results);
  }

  /** `main` step by step on the disk. */
  method RunSession(disk: Disk, pathOf: string -> string, reply: (nat, string) -> Reply, clock: nat -> string,
                    directoryReady: bool, lines: seq<string>)
    returns (outcome: Outcome)
    modifies disk
    ensures outcome == Main(pathOf, reply, clock, directoryReady, lines, old(disk.files))
    ensures disk.files == if outcome.Ran? then outcome.session.files else old(disk.files)
  {
    if !directoryReady {
      return NoDirectory;
    }
    ghost var step := Fetch(pathOf, reply, clock);
    var consumed, results := 0, [];
    while consumed < |lines|
      invariant consumed <= |lines|
      invariant Ran(RunFrom(step, lines, consumed, results, disk.files))
             == Main(pathOf, reply, clock, true, lines, old(disk.files))
      decreases |lines| - consumed
    {
      var pass := RunPass(disk, pathOf, reply, clock, lines, consumed, results);
      if pass.Ended? {
        return Ran(pass.session);
      }
      consumed, results := pass.pos, pass.results;
    }
    return Ran(Session(InputClosed, consumed, results, disk.files));
  }

  /** A session only appends to the results, and it never changes a file
      that existed before it. */
  lemma {:induction false} RunFromKeepsFiles(step: Step, lines: seq<string>, pos: nat,
                                             results: seq<Option<string>>, files: map<string, seq<byte>>)
    requires WellBehaved(step) && pos <= |lines|
    ensures var s := RunFrom(step, lines, pos, results, files);
      results <= s.results
    ensures var s := RunFrom(step, lines, pos, results, files);
      forall q :: q in files ==> q in s.files && s.files[q] == files[q]
    decreases |lines| - pos
  {
    if pos < |lines| {
      var p := OnePass(step, lines, pos, results, files);
      if p.Again? {
        RunFromKeepsFiles(step, lines, p.pos, p.results, p.files);
        assert RunFrom(step, lines, p.pos, p.results, p.files) == RunFrom(step, lines, pos, results, files);
      }
    }
  }

  /** Every path a session reports as saved is a file it created, and no two
      downloads report the same path. */
  lemma {:induction false} RunFromSavedPaths(step: Step, lines: seq<string>, pos: nat,
                                             results: seq<Option<string>>, files: map<string, seq<byte>>)
    requires WellBehaved(step) && pos <= |lines|
    ensures var s := RunFrom(step, lines, pos, results, files);
      forall k :: |results| <= k < |s.results| && s.results[k].Some? ==>
        s.results[k].value in s.files && s.results[k].value !in files
    ensures var s := RunFrom(step, lines, pos, results, files);
      forall j, k :: |results| <= j < k < |s.results| && s.results[j].Some? && s.results[k].Some? ==>
        s.results[j].value != s.results[k].value
    decreases |lines| - pos
  {
    if pos < |lines| {
      var p := OnePass(step, lines, pos, results, files);
      if p.Again? {
        RunFromKeepsFiles(step, lines, p.pos, p.results, p.files);
        RunFromSavedPaths(step, lines, p.pos, p.results, p.files);
        var s := RunFrom(step, lines, p.pos, p.results, p.files);
        assert s == RunFrom(step, lines, pos, results, files);
        if |p.results| > |results| {
          assert s.results[|results|] == p.results[|results|];
        }
      }
    }
  }

  /** Every session ends properly, and it reads at least one line unless
      it starts at the end of the input. */
  lemma {:induction false} RunFromStop(step: Step, lines: seq<string>, pos: nat,
                                       results: seq<Option<string>>, files: map<string, seq<byte>>)
    requires WellBehaved(step) && pos <= |lines|
    ensures ProperEnd(lines, RunFrom(step, lines, pos, results, files))
    ensures var s := RunFrom(step, lines, pos, results, files);
      s.stop != InputClosed ==> pos < s.consumed
    decreases |lines| - pos
  {
    if pos < |lines| {
      var p := OnePass(step, lines, pos, results, files);
      var s := RunFrom(step, lines, pos, results, files);
      if p.Again? {
        RunFromStop(step, lines, p.pos, p.results, p.files);
        assert s == RunFrom(step, lines, p.pos, p.results, p.files);
      } else {
        assert s == p.session;
      }
    }
  }

  /** Each download costs a URL line and, unless the input ends there, an
      answer: at least two lines per download but the last. */
  lemma {:induction false} RunFromDownloads(step: Step, lines: seq<string>, pos: nat,
                                            results: seq<Option<string>>, files: map<string, seq<byte>>)
    requires WellBehaved(step) && pos <= |lines|
    ensures var s := RunFrom(step, lines, pos, results, files);
      |results| <= |s.results| && 2 * (|s.results| - |results|) <= s.consumed - pos + 1
    ensures var s := RunFrom(step, lines, pos, results, files);
      s.stop == Declined ==> |s.results| > |results|
    decreases |lines| - pos
  {
    if pos < |lines| {
      var p := OnePass(step, lines, pos, results, files);
      var s := RunFrom(step, lines, pos, results, files);
      if p.Again? {
        RunFromDownloads(step, lines, p.pos, p.results, p.files);
        assert s == RunFrom(step, lines, p.pos, p.results, p.files);
      } else {
        assert s == p.session;
      }
    }
  }

  /** Blank lines (white space only) are skipped without effect: the session
      goes on as if they had not been typed. */
  lemma BlankLineSkipped(step: Step, lines: seq<string>, pos: nat,
                         results: seq<Option<string>>, files: map<string, seq<byte>>)
    requires WellBehaved(step) && pos < |lines|
    requires forall i :: 0 <= i < |lines[pos]| ==> IsSpace(lines[pos][i])
    ensures RunFrom(step, lines, pos, results, files) == RunFrom(step, lines, pos + 1, results, files)
  {
    StripBlank(lines[pos]);
    assert !IsQuit(lines[pos]) by {
      assert Lower(Strip(lines[pos])) == [];
    }
    assert OnePass(step, lines, pos, results, files) == Again(pos + 1, results, files);
  }

  /** A quit word, in any case and surrounded by any white space, ends the
      session at once with nothing downloaded. */
  lemma QuitEndsSession(step: Step, lines: seq<string>, pos: nat,
                        results: seq<Option<string>>, files: map<string, seq<byte>>)
    requires WellBehaved(step) && pos < |lines|
    requires IsQuit(lines[pos])
    ensures var s := RunFrom(step, lines, pos, results, files);
      s.stop == Quit && s.consumed == pos + 1 && s.results == results && s.files == files
  {
  }

  /** For `main` itself: when the directory is ready, no file that existed
      before is changed, every path reported as saved is a new file, and no
      two downloads report the same path. */
  lemma MainNeverOverwrites(pathOf: string -> string, reply: (nat, string) -> Reply, clock: nat -> string,
                            lines: seq<string>, files: map<string, seq<byte>>)
    ensures var s := Main(pathOf, reply, clock, true, lines, files).session;
      forall q :: q in files ==> q in s.files && s.files[q] == files[q]
    ensures var s := Main(pathOf, reply, clock, true, lines, files).session;
      forall k :: 0 <= k < |s.results| && s.results[k].Some? ==>
        s.results[k].value in s.files && s.results[k].value !in files
    ensures var s := Main(pathOf, reply, clock, true, lines, files).session;
      forall j, k :: 0 <= j < k < |s.results| && s.results[j].Some? && s.results[k].Some? ==>
        s.results[j].value != s.results[k].value
  {
    var step := Fetch(pathOf, reply, clock);
    assert Main(pathOf, reply, clock, true, lines, files).session == RunFrom(step, lines, 0, [], files);
    RunFromKeepsFiles(step, lines, 0, [], files);
    RunFromSavedPaths(step, lines, 0, [], files);
  }

  /** For `main` itself: when the directory is ready, the session ends on a
      quit word, on an answer other than `y` to going on, or at the end of
      the input, and it made at most one download per two lines read, plus
      one. */
  lemma MainStops(pathOf: string -> string, reply: (nat, string) -> Reply, clock: nat -> string,
                  lines: seq<string>, files: map<string, seq<byte>>)
    ensures var s := Main(pathOf, reply, clock, true, lines, files).session;
      ProperEnd(lines, s) && 2 * |s.results| <= s.consumed + 1 && (s.stop == Declined ==> s.results != [])
  {
    var step := Fetch(pathOf, reply, clock);
    assert Main(pathOf, reply, clock, true, lines, files).session == RunFrom(step, lines, 0, [], files);
    RunFromStop(step, lines, 0, [], files);
    RunFromDownloads(step, lines, 0, [], files);
  }

  /** A server that answers every request with a `text/html` page whose
      `content-length` cannot be read. */
  function UnsizedPage(n: nat, url: string): Reply
  {
    Unsized("text/html")
  }

  /** `http://a/b` is a URL line: neither blank nor a quit word. */
  lemma PlainUrlLine()
    ensures Strip("http://a/b") == "http://a/b" && !IsQuit("http://a/b")
  {
    var url := "http://a/b";
    assert !IsSpace(url[0]) && !IsSpace(url[9]);
    StripUntrimmed(url);
  }

  /** The step `Fetch` builds is `Download` on the stripped line. */
  lemma FetchApply(pathOf: string -> string, reply: (nat, string) -> Reply, clock: nat -> string,
                   n: nat, line: string, files: map<string, seq<byte>>, answer: Option<string>)
    ensures Fetch(pathOf, reply, clock)(n, line, files, answer)
         == Download(files, pathOf(Strip(line)), reply(n, Strip(line)), answer, clock(n))
  {
  }

  /** Confirmed with `y`, the download from that server reads the answer
      line and writes nothing. */
  lemma UnsizedPageAttempt(pathOf: string -> string, clock: nat -> string, files: map<string, seq<byte>>)
    ensures Fetch(pathOf, UnsizedPage, clock)(0, "http://a/b", files, Some("y")) == Attempt(None, files, 1)
  {
    var url := "http://a/b";
    PlainUrlLine();
    FetchApply(pathOf, UnsizedPage, clock, 0, url, files, Some("y"));
    assert UnsizedPage(0, url) == Unsized("text/html");
    UnsizedHtmlConfirmed(files, pathOf(url), clock(0));
  }

  /** Three lines: a URL, the answer to the confirmation prompt, and an
      answer other than `y` to "Download another image?". When the download
      reads that answer and saves nothing, the session ends declined after
      the three lines, with the files unchanged. */
  lemma ConfirmedThenDeclined(step: Step, lines: seq<string>, files: map<string, seq<byte>>)
    requires WellBehaved(step) && |lines| == 3
    requires !IsQuit(lines[0]) && Strip(lines[0]) != []
    requires step(0, lines[0], files, Some(lines[1])) == Attempt(None, files, 1)
    requires lines[2] != "y" && lines[2] != "Y"
    ensures RunFrom(step, lines, 0, [], files) == Session(Declined, 3, [None], files)
  {
    DownloadThenAsk(step, lines, 0, [], files);
  }

  /** After the failed download, the `n` that follows answers "Download
      another image?", so the session ends declined after all three lines,
      with nothing saved and the files unchanged. */
  lemma UnsizedPageDeclined(pathOf: string -> string, clock: nat -> string, files: map<string, seq<byte>>)
    ensures Main(pathOf, UnsizedPage, clock, true, ["http://a/b", "y", "n"], files)
         == Ran(Session(Declined, 3, [None], files))
  {
    var lines := ["http://a/b", "y", "n"];
    PlainUrlLine();
    UnsizedPageAttempt(pathOf, clock, files);
    ConfirmedThenDeclined(Fetch(pathOf, UnsizedPage, clock), lines, files);
  }
}

=== FILE: fetcher.dfy ===
/** `download_image` (week6.py:50-122): fetch a URL, check the content type,
    resolve a free file name in `Fetched_Images` and stream the body into
    it. The network is replaced by the server's `Reply`, the console by the
    answer line (if any), the clock by a time stamp string, and the file
    system by a `Disk` that maps paths to their bytes. */
module Fetcher {
  import opened Text
  import opened Resolver
  import opened Collision

  newtype byte = x: int | 0 <= x < 0x100

  datatype Option<T> = None | Some(value: T)

  /** The `requests` failures `download_image` tells apart; each makes it
      return `None`. */
  datatype TransportError =
    | Timeout
    | ConnectionFailed
    | HttpStatus(code: int)
    | TooManyRedirects
    | OtherRequestError

  /** How the body stream ends: after the last chunk, or with an error
      raised by `iter_content` after the chunks delivered so far. */
  datatype StreamEnd = Complete | Broken(error: TransportError)

  /** What the server does with the GET request: fail before any body;
      answer with a `content-type` header (empty when absent) and a body
      delivered in chunks; or answer with a `content-type` header and a
      `content-length` header that `int()` cannot read, so that the call
      fails after the content-type check and before the file is opened. */
  datatype Reply =
    | Refused(error: TransportError)
    | Served(contentType: string, body: seq<seq<byte>>, end: StreamEnd)
    | Unsized(contentType: string)

  /** The directory `main` downloads into. */
  const DownloadDir := "Fetched_Images"

  /** POSIX `os.path.join(dir, name)`. */
  function Join(dir: string, name: string): (path: string)
    ensures |name| <= |path| && path[|path| - |name|..] == name
  {
    if name != [] && name[0] == '/' then name
    else if dir == [] || dir[|dir| - 1] == '/' then dir + name
    else dir + "/" + name
  }

  /** The file system: every existing path with the bytes stored there. */
  class Disk {
    var files: map<string, seq<byte>>

    constructor (initial: map<string, seq<byte>>)
      ensures files == initial
    {
      files := initial;
    }

    /** `open(path, 'wb')`: the file exists afterwards and is empty. */
    method Open(path: string)
      modifies this
      ensures files == old(files)[path := []]
    {
      files := files[path := []];
    }

    /** `file.write(data)` on a file opened for writing: appends `data`. */
    method Write(path: string, data: seq<byte>)
      requires path in files
      modifies this
      ensures files == old(files)[path := old(files)[path] + data]
    {
      files := files[path := files[path] + data];
    }
  }

  /** All chunks one after the other. */
  function Concat(chunks: seq<seq<byte>>): seq<byte>
  {
    if chunks == [] then [] else Concat(chunks[..|chunks| - 1]) + chunks[|chunks| - 1]
  }

  /** The sum of the chunk lengths. */
  function TotalSize(chunks: seq<seq<byte>>): nat
  {
    if chunks == [] then 0 else TotalSize(chunks[..|chunks| - 1]) + |chunks[|chunks| - 1]|
  }

  /** The chunks with the empty ones left out (`if chunk:`). */
  function NonEmpty(chunks: seq<seq<byte>>): seq<seq<byte>>
  {
    if chunks == [] then []
    else if chunks[|chunks| - 1] == [] then NonEmpty(chunks[..|chunks| - 1])
    else NonEmpty(chunks[..|chunks| - 1]) + [chunks[|chunks| - 1]]
  }

  /** The bytes written are as many as the chunk lengths add up to. */
  lemma {:induction false} ConcatSize(chunks: seq<seq<byte>>)
    ensures |Concat(chunks)| == TotalSize(chunks)
  {
    if chunks != [] {
      ConcatSize(chunks[..|chunks| - 1]);
    }
  }

  /** Skipping empty chunks changes nothing in what is written. */
  lemma {:induction false} ConcatNonEmpty(chunks: seq<seq<byte>>)
    ensures Concat(NonEmpty(chunks)) == Concat(chunks)
  {
    if chunks != [] {
      var init, last := chunks[..|chunks| - 1], chunks[|chunks| - 1];
      ConcatNonEmpty(init);
      if last != [] {
        var ne := NonEmpty(init) + [last];
        assert ne[..|ne| - 1] == NonEmpty(init);
      }
    }
  }

  /** The loop of week6.py:92-96 on an open file: every non-empty chunk is
      appended and counted. Afterwards the file holds what it held followed
      by all chunks, and `downloaded` is the number of bytes written. */
  method WriteChunks(disk: Disk, path: string, chunks: seq<seq<byte>>) returns (downloaded: nat)
    requires path in disk.files
    modifies disk
    ensures disk.files == old(disk.files)[path := old(disk.files)[path] + Concat(chunks)]
    ensures downloaded == |Concat(chunks)|
  {
    ghost var before := disk.files;
    ghost var start := before[path];
    assert start + Concat(chunks[..0]) == start;
    assert before[path := start] == before;
    downloaded := 0;
    for i := 0 to |chunks|
      invariant path in disk.files
      invariant disk.files == before[path := start + Concat(chunks[..i])]
      invariant downloaded == |Concat(chunks[..i])|
    {
      var chunk := chunks[i];
      assert chunks[..i + 1][..i] == chunks[..i];
      assert Concat(chunks[..i + 1]) == Concat(chunks[..i]) + chunk;
      assert start + Concat(chunks[..i]) + chunk == start + Concat(chunks[..i + 1]);
      if chunk != [] {
        disk.Write(path, chunk);
        downloaded := downloaded + |chunk|;
      } else {
        assert Concat(chunks[..i + 1]) == Concat(chunks[..i]);
      }
    }
    assert chunks[..|chunks|] == chunks;
  }

  /** The `with open(filepath, 'wb')` block of week6.py:92-99: the file is
      created empty (or truncated) and receives every chunk, so it ends up
      holding exactly the body. */
  method SaveBody(disk: Disk, path: string, chunks: seq<seq<byte>>)
    modifies disk
    ensures disk.files == old(disk.files)[path := Concat(chunks)]
  {
    disk.Open(path);
    ghost var created := disk.files;
    var downloaded := WriteChunks(disk, path, chunks);
    assert created[path] + Concat(chunks) == Concat(chunks);
  }

  /** The content-type check of week6.py:68 (the header is lower-cased first). */
  predicate IsImageType(contentType: string)
    ensures IsImageType(contentType) ==> |contentType| > 5 && contentType[5] == '/'
  {
    "image/" <= contentType
  }

  /** A content type that passes the check has a `/`, so a fallback name
      takes its extension from the text after the last `/`. */
  lemma ImageTypeExtension(contentType: string)
    requires IsImageType(contentType)
    ensures Extension(contentType) == Strip(BeforeFirst(AfterLast(contentType, '/'), ';'))
  {
    assert contentType[5] == '/';
  }

  /** The path the body is written to: the resolved name in the download
      directory, moved on by the collision probe until it is free. */
  function TargetPath(files: map<string, seq<byte>>, urlPath: string,
                      contentType: string, timestamp: string): (path: string)
    ensures path !in files
  {
    var original := Join(DownloadDir, ResolveFilename(urlPath, contentType, timestamp));
    Candidate(original, FirstFree(original, files.Keys))
  }

  /** The outcome of one call: the returned path (`None` for every failure
      and for a cancelled download), the files afterwards, and how many
      console lines the call read (the confirmation answer, if asked). */
  datatype Attempt = Attempt(saved: Option<string>, files: map<string, seq<byte>>, answersRead: nat)

  /** What `download_image` does, as a function of the files before the
      call, the URL's path, the server's reply, the next console line
      (`None` at end of input) and the clock. */
  function Download(files: map<string, seq<byte>>, urlPath: string, reply: Reply,
                    answer: Option<string>, timestamp: string): (a: Attempt)
    ensures a.answersRead <= 1
    ensures a.answersRead == 1
        <==> !reply.Refused? && !IsImageType(Lower(reply.contentType)) && answer.Some?
  {
    match reply
    case Refused(_) => Attempt(None, files, 0)
    case Unsized(header) =>
      // The check runs as for a served body, then `int()` raises ValueError,
      // which the catch-all handler turns into None: no file is written.
      Attempt(None, files, if IsImageType(Lower(header)) || answer.None? then 0 else 1)
    case Served(header, body, end) =>
      var contentType := Lower(header);
      if !IsImageType(contentType) && answer.None? then
        // `input` raises EOFError, which the catch-all handler turns into None.
        Attempt(None, files, 0)
      else if !IsImageType(contentType) && Lower(answer.value) != "y" then
        Attempt(None, files, 1)
      else
        var path := TargetPath(files, urlPath, contentType, timestamp);
        Attempt(if end.Complete? then Some(path) else None,
                files[path := Concat(body)],
                if IsImageType(contentType) then 0 else 1)
  }

  /** `download_image` step by step on the disk. */
  method DownloadImage(disk: Disk, urlPath: string, reply: Reply, answer: Option<string>,
                       timestamp: string) returns (saved: Option<string>, answersRead: nat)
    modifies disk
    ensures Attempt(saved, disk.files, answersRead)
         == Download(old(disk.files), urlPath, reply, answer, timestamp)
  {
    if reply.Refused? {
      return None, 0;
    }
    var contentType := Lower(reply.contentType);
    answersRead := 0;
    if !IsImageType(contentType) {
      if answer.None? {
        return None, 0;
      }
      answersRead := 1;
      if Lower(answer.value) != "y" {
        return None, 1;
      }
    }
    if reply.Unsized? {
      return None, answersRead;
    }
    var filename := ResolveFilename(urlPath, contentType, timestamp);
    var filepath := ResolveCollision(Join(DownloadDir, filename), disk.files.Keys);
    assert filepath == TargetPath(old(disk.files), urlPath, contentType, timestamp);
    SaveBody(disk, filepath, reply.body);
    saved := if reply.end.Complete? then Some(filepath) else None;
  }

  /** A file is written exactly when the server served a body and either
      its content type starts with `image/` (in any case) or the user
      answered `y` or `Y` to the confirmation prompt; a path is returned
      exactly when a file was written from a body stream that completed. */
  lemma DownloadGate(files: map<string, seq<byte>>, urlPath: string, reply: Reply,
                     answer: Option<string>, timestamp: string)
    ensures var a := Download(files, urlPath, reply, answer, timestamp);
      (a.files != files)
        <==> (reply.Served? && (IsImageType(Lower(reply.contentType)) || answer == Some("y") || answer == Some("Y")))
    ensures var a := Download(files, urlPath, reply, answer, timestamp);
      a.saved.Some? <==> a.files != files && reply.end.Complete?
  {
    var a := Download(files, urlPath, reply, answer, timestamp);
    if reply.Served? {
      var contentType := Lower(reply.contentType);
      if answer.Some? {
        LowerIsY(answer.value);
      }
      if IsImageType(contentType) || (answer.Some? && Lower(answer.value) == "y") {
        var path := TargetPath(files, urlPath, contentType, timestamp);
        assert a.files == files[path := Concat(reply.body)];
        assert path in a.files && path !in files;
      } else {
        assert a.files == files;
      }
    }
  }

  /** A download never changes a file that existed before it; the only new
      file is the returned path (if any) and it holds the served bytes. */
  lemma DownloadNeverOverwrites(files: map<string, seq<byte>>, urlPath: string, reply: Reply,
                                answer: Option<string>, timestamp: string)
    ensures var a := Download(files, urlPath, reply, answer, timestamp);
      forall p :: p in files ==> p in a.files && a.files[p] == files[p]
    ensures var a := Download(files, urlPath, reply, answer, timestamp);
      forall p :: p in a.files && p !in files ==> reply.Served? && a.files[p] == Concat(reply.body)
    ensures var a := Download(files, urlPath, reply, answer, timestamp);
      a.saved.Some? ==> a.saved.value !in files && a.files == files[a.saved.value := Concat(reply.body)]
  {
    var a := Download(files, urlPath, reply, answer, timestamp);
    match reply
    case Refused(_) =>
      assert a == Attempt(None, files, 0);
    case Unsized(_) =>
      assert a.files == files && a.saved == None;
    case Served(header, body, end) =>
      var contentType := Lower(header);
      if IsImageType(contentType) || (answer.Some? && Lower(answer.value) == "y") {
        var path := TargetPath(files, urlPath, contentType, timestamp);
        assert a == Attempt(if end.Complete? then Some(path) else None, files[path := Concat(body)],
                            if IsImageType(contentType) then 0 else 1);
        FreshWrite(files, path, Concat(body));
      } else {
        assert a.files == files && a.saved == None;
      }
  }

  /** Writing to a path that is not yet there keeps every existing file and
      adds that one path only. */
  lemma FreshWrite(files: map<string, seq<byte>>, path: string, contents: seq<byte>)
    requires path !in files
    ensures forall p :: p in files ==> p in files[path := contents] && files[path := contents][p] == files[p]
    ensures forall p :: p in files[path := contents] && p !in files ==> p == path
  {
  }

  /** A reply whose `content-length` cannot be read gets through the
      content-type check exactly as a served body with the same content type
      would, reading the same console lines, and then writes nothing and
      returns `None`. */
  lemma DownloadUnsized(files: map<string, seq<byte>>, urlPath: string, header: string,
                        body: seq<seq<byte>>, end: StreamEnd, answer: Option<string>, timestamp: string)
    ensures Download(files, urlPath, Unsized(header), answer, timestamp)
         == Attempt(None, files, Download(files, urlPath, Served(header, body, end), answer, timestamp).answersRead)
  {
  }

  /** `text/html` is not an image type. */
  lemma HtmlIsNoImage()
    ensures Lower("text/html") == "text/html" && !IsImageType("text/html")
  {
    var header := "text/html";
    assert forall i :: 0 <= i < |header| ==> 'a' <= header[i] <= 'z' || header[i] == '/';
    LowerUnchanged(header);
    assert header[0] != "image/"[0];
  }

  /** A `text/html` page whose `content-length` cannot be read, confirmed
      with `y`: the answer line is read and nothing is written. */
  lemma UnsizedHtmlConfirmed(files: map<string, seq<byte>>, urlPath: string, timestamp: string)
    ensures Download(files, urlPath, Unsized("text/html"), Some("y"), timestamp) == Attempt(None, files, 1)
  {
    HtmlIsNoImage();
  }

  /** A complete body served as an image is saved at the target path
      without any question being asked. */
  lemma DownloadServedImage(files: map<string, seq<byte>>, urlPath: string, header: string,
                            body: seq<seq<byte>>, answer: Option<string>, timestamp: string)
    requires IsImageType(Lower(header))
    ensures var path := TargetPath(files, urlPath, Lower(header), timestamp);
      Download(files, urlPath, Served(header, body, Complete), answer, timestamp)
        == Attempt(Some(path), files[path := Concat(body)], 0)
  {
  }

  /** A body whose content type fails the check is saved at the target path
      after a `y` or `Y`, which is the one console line read; the path is
      returned when the body stream completed. */
  lemma DownloadConfirmed(files: map<string, seq<byte>>, urlPath: string, header: string,
                          body: seq<seq<byte>>, end: StreamEnd, answer: string, timestamp: string)
    requires !IsImageType(Lower(header))
    requires answer == "y" || answer == "Y"
    ensures var path := TargetPath(files, urlPath, Lower(header), timestamp);
      Download(files, urlPath, Served(header, body, end), Some(answer), timestamp)
        == Attempt(if end.Complete? then Some(path) else None, files[path := Concat(body)], 1)
  {
    LowerIsY(answer);
  }

  /** Any other answer to the confirmation prompt is still read, and
      nothing is written or returned. */
  lemma DownloadDeclined(files: map<string, seq<byte>>, urlPath: string, header: string,
                         body: seq<seq<byte>>, end: StreamEnd, answer: string, timestamp: string)
    requires !IsImageType(Lower(header))
    requires answer != "y" && answer != "Y"
    ensures Download(files, urlPath, Served(header, body, end), Some(answer), timestamp)
         == Attempt(None, files, 1)
  {
    LowerIsY(answer);
  }

  /** In an empty directory the target path is the resolved name itself. */
  lemma TargetPathWhenEmpty(urlPath: string, contentType: string, timestamp: string)
    ensures TargetPath(map[], urlPath, contentType, timestamp)
         == Join(DownloadDir, ResolveFilename(urlPath, contentType, timestamp))
  {
    var original := Join(DownloadDir, ResolveFilename(urlPath, contentType, timestamp));
    var none: map<string, seq<byte>> := map[];
    assert none.Keys == {};
    FirstFreeExact(original, {}, 0);
  }

  /** Joining a relative name to a directory without a trailing `/`. */
  lemma JoinRelative(dir: string, name: string)
    requires dir != [] && dir[|dir| - 1] != '/'
    requires name == [] || name[0] != '/'
    ensures Join(dir, name) == dir + "/" + name
  {
  }

  /** The literal paths of the scenarios below, split where the name logic
      splits them. */
  lemma CatLiterals()
    ensures "/pics/cat.jpg" == "/pics" + "/" + "cat.jpg"
    ensures "Fetched_Images/cat.jpg" == DownloadDir + "/" + "cat.jpg"
    ensures "image/jpeg" == "image/" + "jpeg"
  {
    var url, path := "/pics/cat.jpg", "/pics" + "/" + "cat.jpg";
    assert |url| == |path| && forall i :: 0 <= i < |url| ==> url[i] == path[i];
    var target, joined := "Fetched_Images/cat.jpg", DownloadDir + "/" + "cat.jpg";
    assert |target| == |joined| && forall i :: 0 <= i < |target| ==> target[i] == joined[i];
    var header, parts := "image/jpeg", "image/" + "jpeg";
    assert |header| == |parts| && forall i :: 0 <= i < |header| ==> header[i] == parts[i];
  }

  /** The name resolved for `/pics/cat.jpg` is `cat.jpg`. */
  lemma CatPictureName(contentType: string, timestamp: string)
    ensures ResolveFilename("/pics/cat.jpg", contentType, timestamp) == "cat.jpg"
  {
    var name := "cat.jpg";
    assert name[3] == '.';
    assert forall i :: 0 <= i < |name| ==> IsSafeChar(name[i]) && name[i] != '?' && name[i] != '/';
    ResolveKeepsCleanName("/pics", name, contentType, timestamp);
    CatLiterals();
  }

  /** In an empty directory, `/pics/cat.jpg` goes to `Fetched_Images/cat.jpg`. */
  lemma CatPicturePath(contentType: string, timestamp: string)
    ensures TargetPath(map[], "/pics/cat.jpg", contentType, timestamp) == "Fetched_Images/cat.jpg"
  {
    CatPictureName(contentType, timestamp);
    TargetPathWhenEmpty("/pics/cat.jpg", contentType, timestamp);
    JoinRelative(DownloadDir, "cat.jpg");
    CatLiterals();
  }

  /** A header `image/<subtype>` with a lower-case subtype is unchanged by
      lower-casing and passes the content-type check. */
  lemma ImageHeader(subtype: string)
    requires forall i :: 0 <= i < |subtype| ==> 'a' <= subtype[i] <= 'z'
    ensures Lower("image/" + subtype) == "image/" + subtype
    ensures IsImageType("image/" + subtype)
  {
    var header := "image/" + subtype;
    forall i | 0 <= i < |header| ensures !('A' <= header[i] <= 'Z') {
      if i >= 6 {
        assert header[i] == subtype[i - 6];
      }
    }
    LowerUnchanged(header);
  }

  /** The header `image/jpeg` is already in lower case and is an image type. */
  lemma JpegIsImage()
    ensures Lower("image/jpeg") == "image/jpeg" && IsImageType("image/jpeg")
  {
    CatLiterals();
    ImageHeader("jpeg");
  }

  /** `https://example.com/pics/cat.jpg` served as `image/jpeg` into an empty
      directory is saved as `Fetched_Images/cat.jpg`, holding the body. */
  lemma CatPictureSaved(body: seq<seq<byte>>, answer: Option<string>, timestamp: string)
    ensures Download(map[], "/pics/cat.jpg", Served("image/jpeg", body, Complete), answer, timestamp)
         == Attempt(Some("Fetched_Images/cat.jpg"), map["Fetched_Images/cat.jpg" := Concat(body)], 0)
  {
    var header := "image/jpeg";
    JpegIsImage();
    DownloadServedImage(map[], "/pics/cat.jpg", header, body, answer, timestamp);
    CatPicturePath(header, timestamp);
  }

  /** `/pics/cat.jpg` resolves to `Fetched_Images/cat.jpg` before the
      probe. */
  lemma CatPictureOriginal(contentType: string, timestamp: string)
    ensures Join(DownloadDir, ResolveFilename("/pics/cat.jpg", contentType, timestamp)) == "Fetched_Images/cat.jpg"
  {
    CatPictureName(contentType, timestamp);
    JoinRelative(DownloadDir, "cat.jpg");
    CatLiterals();
  }

  /** The literal paths of the collision scenarios, split where `splitext`
      splits them. */
  lemma CatCopyLiterals()
    ensures "Fetched_Images/cat.jpg" == "Fetched_Images" + "/" + "cat" + "." + "jpg"
    ensures "Fetched_Images" + "/" + "cat" + "_1." + "jpg" == "Fetched_Images/cat_1.jpg"
    ensures "Fetched_Images" + "/" + "cat" + "_2." + "jpg" == "Fetched_Images/cat_2.jpg"
    ensures '/' !in "cat" && '/' !in "jpg" && '.' !in "jpg" && "cat"[0] != '.'
  {
    var a, b := "Fetched_Images/cat.jpg", "Fetched_Images" + "/" + "cat" + "." + "jpg";
    assert |a| == |b| && forall i :: 0 <= i < |a| ==> a[i] == b[i];
    var c, d := "Fetched_Images/cat_1.jpg", "Fetched_Images" + "/" + "cat" + "_1." + "jpg";
    assert |c| == |d| && forall i :: 0 <= i < |c| ==> c[i] == d[i];
    var e, f := "Fetched_Images/cat_2.jpg", "Fetched_Images" + "/" + "cat" + "_2." + "jpg";
    assert |e| == |f| && forall i :: 0 <= i < |e| ==> e[i] == f[i];
  }

  /** With `Fetched_Images/cat.jpg` already there, `/pics/cat.jpg` goes to
      `Fetched_Images/cat_1.jpg`. */
  lemma CatPictureSecondCopy(earlier: seq<byte>, contentType: string, timestamp: string)
    ensures TargetPath(map["Fetched_Images/cat.jpg" := earlier], "/pics/cat.jpg", contentType, timestamp)
         == "Fetched_Images/cat_1.jpg"
  {
    var files := map["Fetched_Images/cat.jpg" := earlier];
    assert files.Keys == {"Fetched_Images/cat.jpg"};
    CatPictureOriginal(contentType, timestamp);
    CatCopyLiterals();
    FirstCollision("Fetched_Images", "cat", "jpg");
  }

  /** With `Fetched_Images/cat.jpg` and `Fetched_Images/cat_1.jpg` already
      there, `/pics/cat.jpg` goes to `Fetched_Images/cat_2.jpg`. */
  lemma CatPictureThirdCopy(first: seq<byte>, second: seq<byte>, contentType: string, timestamp: string)
    ensures TargetPath(map["Fetched_Images/cat.jpg" := first, "Fetched_Images/cat_1.jpg" := second],
                       "/pics/cat.jpg", contentType, timestamp)
         == "Fetched_Images/cat_2.jpg"
  {
    var files := map["Fetched_Images/cat.jpg" := first, "Fetched_Images/cat_1.jpg" := second];
    assert files.Keys == {"Fetched_Images/cat.jpg", "Fetched_Images/cat_1.jpg"};
    CatPictureOriginal(contentType, timestamp);
    CatCopyLiterals();
    SecondCollision("Fetched_Images", "cat", "jpg");
  }

  /** Downloading `/pics/cat.jpg` again as `image/jpeg` keeps the earlier
      `Fetched_Images/cat.jpg` and saves the new body as
      `Fetched_Images/cat_1.jpg`. */
  lemma CatPictureSavedAgain(earlier: seq<byte>, body: seq<seq<byte>>, answer: Option<string>, timestamp: string)
    ensures Download(map["Fetched_Images/cat.jpg" := earlier], "/pics/cat.jpg", Served("image/jpeg", body, Complete),
                     answer, timestamp)
         == Attempt(Some("Fetched_Images/cat_1.jpg"),
                    map["Fetched_Images/cat.jpg" := earlier, "Fetched_Images/cat_1.jpg" := Concat(body)], 0)
  {
    JpegIsImage();
    DownloadServedImage(map["Fetched_Images/cat.jpg" := earlier], "/pics/cat.jpg", "image/jpeg", body, answer, timestamp);
    CatPictureSecondCopy(earlier, "image/jpeg", timestamp);
  }

  /** `/render` has no usable last segment: it holds no `.`. */
  lemma RenderHasNoName()
    ensures !IsUsableName(BaseName("/render"))
  {
    RenderLiterals("");
    AfterLastExact([], "render", '/');
    assert "render"[5] == 'r';
  }

  /** The literal content type and name of the `/render` scenario, split
      where the name logic splits them. */
  lemma RenderLiterals(timestamp: string)
    ensures "/render" == [] + ['/'] + "render"
    ensures "image/png" == "image" + "/" + "png" && "image/png" == "image/" + "png"
    ensures "image_" + timestamp + "." + "png" == "image_" + timestamp + ".png"
    ensures DownloadDir + "/" + ("image_" + timestamp + ".png") == "Fetched_Images/image_" + timestamp + ".png"
  {
    var path, split := "/render", [] + ['/'] + "render";
    assert |path| == |split| && forall i :: 0 <= i < |path| ==> path[i] == split[i];
    var header, parts := "image/png", "image" + "/" + "png";
    assert |header| == |parts| && forall i :: 0 <= i < |header| ==> header[i] == parts[i];
    assert "." + "png" == ".png";
    assert DownloadDir + "/" + "image_" == "Fetched_Images/image_";
  }

  /** The name resolved for `/render` with content type `image/png` is
      `image_<timestamp>.png`. */
  lemma RenderedPictureName(timestamp: string)
    requires IsTimestamp(timestamp)
    ensures ResolveFilename("/render", "image/png", timestamp) == "image_" + timestamp + ".png"
  {
    RenderHasNoName();
    var subtype := "png";
    assert forall i :: 0 <= i < |subtype| ==> IsSafeChar(subtype[i]);
    ResolveFallbackMediaType("/render", "image", subtype, timestamp);
    RenderLiterals(timestamp);
  }

  /** The header `image/png` is already in lower case and is an image type. */
  lemma PngIsImage()
    ensures Lower("image/png") == "image/png" && IsImageType("image/png")
  {
    RenderLiterals("");
    ImageHeader("png");
  }

  /** `https://example.com/render?id=9` (path `/render`) served as
      `image/png` into an empty directory is saved as
      `Fetched_Images/image_<timestamp>.png`. */
  lemma RenderedPictureSaved(body: seq<seq<byte>>, answer: Option<string>, timestamp: string)
    requires IsTimestamp(timestamp)
    ensures Download(map[], "/render", Served("image/png", body, Complete), answer, timestamp).saved
         == Some("Fetched_Images/image_" + timestamp + ".png")
  {
    var header := "image/png";
    var name := "image_" + timestamp + ".png";
    PngIsImage();
    DownloadServedImage(map[], "/render", header, body, answer, timestamp);
    RenderedPictureName(timestamp);
    TargetPathWhenEmpty("/render", header, timestamp);
    JoinRelative(DownloadDir, name);
    RenderLiterals(timestamp);
  }
}

=== FILE: resolver.dfy ===
/** `get_valid_filename` (week6.py): derives a local file name from the
    path of the requested URL, falling back to a time-stamped name whose
    extension comes from the response's content type. The URL path and the
    time stamp are parameters: URL parsing and the clock are not modelled. */
module Resolver {
  import opened Text

  /** A name taken from the URL is used only up to this many characters. */
  const MaxNameLength := 100

  /** Python's `\w` in a regular expression, restricted to ASCII. */
  predicate IsWordChar(c: char)
  {
    'a' <= c <= 'z' || 'A' <= c <= 'Z' || '0' <= c <= '9' || c == '_'
  }

  /** The characters the pattern `[^\w\-_.]` does not match. */
  predicate IsSafeChar(c: char)
  {
    IsWordChar(c) || c == '-' || c == '_' || c == '.'
  }

  /** `re.sub(r'[^\w\-_.]', '_', s)`: every unsafe character becomes `_`,
      position by position. */
  function Sanitize(s: string): (r: string)
    ensures |r| == |s|
    ensures forall i :: 0 <= i < |s| ==> r[i] == if IsSafeChar(s[i]) then s[i] else '_'
  {
    if s == [] then [] else [if IsSafeChar(s[0]) then s[0] else '_'] + Sanitize(s[1..])
  }

  /** A sanitised name is made of safe characters only, and it is `s` itself
      exactly when `s` already was. */
  lemma SanitizeSafe(s: string)
    ensures forall i :: 0 <= i < |s| ==> IsSafeChar(Sanitize(s)[i])
    ensures Sanitize(s) == s <==> forall i :: 0 <= i < |s| ==> IsSafeChar(s[i])
  {
    if forall i :: 0 <= i < |s| ==> IsSafeChar(s[i]) {
      assert Sanitize(s) == s;
    }
  }

  /** Sanitising twice is sanitising once. */
  lemma SanitizeIdempotent(s: string)
    ensures Sanitize(Sanitize(s)) == Sanitize(s)
  {
    SanitizeSafe(s);
    SanitizeSafe(Sanitize(s));
  }

  /** Sanitising works character by character, so it splits over `+`. */
  lemma SanitizeAppend(a: string, b: string)
    ensures Sanitize(a + b) == Sanitize(a) + Sanitize(b)
  {
    var l, r := Sanitize(a + b), Sanitize(a) + Sanitize(b);
    forall i | 0 <= i < |l| ensures l[i] == r[i] {
      if i < |a| {
        assert (a + b)[i] == a[i];
      } else {
        assert (a + b)[i] == b[i - |a|];
      }
    }
  }

  /** `os.path.basename` on a POSIX path: the text after the last `/`. */
  function BaseName(path: string): (name: string)
    ensures '/' !in name
    ensures |name| <= |path| && name == path[|path| - |name|..]
  {
    AfterLast(path, '/')
  }

  /** The test of week6.py:26, negated: a URL name is kept when it is
      non-empty, has a `.` and is at most 100 characters long. */
  predicate IsUsableName(name: string)
    ensures IsUsableName(name) <==> 0 < |name| <= MaxNameLength && exists i :: 0 <= i < |name| && name[i] == '.'
  {
    !(name == [] || '.' !in name || |name| > MaxNameLength)
  }

  /** The fallback extension: the content type after its last `/`, cut at
      the first `;` and stripped of white space; `bin` when the content type
      is empty or has no `/`. */
  function Extension(contentType: string): (ext: string)
    ensures '/' !in ext && ';' !in ext
    ensures Trimmed(ext)
    ensures '/' !in contentType ==> ext == "bin"
  {
    if contentType != [] && '/' in contentType then
      SubtypePlain(contentType);
      Strip(BeforeFirst(AfterLast(contentType, '/'), ';'))
    else
      BinPlain();
      "bin"
  }

  /** The text after the last `/`, cut at `;` and stripped, holds no
      separator and no white space at either end. */
  lemma SubtypePlain(contentType: string)
    ensures var ext := Strip(BeforeFirst(AfterLast(contentType, '/'), ';'));
      && '/' !in ext && ';' !in ext
      && Trimmed(ext)
  {
    var last := AfterLast(contentType, '/');
    var param := BeforeFirst(last, ';');
    PrefixFree(last, param, '/');
    StripFree(param, '/');
    StripFree(param, ';');
  }

  /** The generic extension `bin` holds no separator and no white space. */
  lemma BinPlain()
    ensures '/' !in "bin" && ';' !in "bin"
    ensures Trimmed("bin")
  {
  }

  /** What the code takes as extension is whatever follows the LAST `/` of
      the whole header, parameters included. */
  lemma ExtensionAfterLastSlash(front: string, back: string)
    requires '/' !in back
    ensures Extension(front + "/" + back) == Strip(BeforeFirst(back, ';'))
  {
    var header := front + "/" + back;
    assert header == front + ['/'] + back;
    AfterLastExact(front, back, '/');
    assert header[|front|] == '/';
    assert AfterLast(header, '/') == back;
  }

  /** For a media type `kind/subtype` followed by nothing or by parameters
      that hold no `/`, the extension is the subtype, stripped, with its case
      kept as given. */
  lemma ExtensionOfMediaType(kind: string, subtype: string, params: string)
    requires '/' !in subtype && ';' !in subtype && '/' !in params
    requires params == [] || params[0] == ';'
    ensures Extension(kind + "/" + subtype + params) == Strip(subtype)
  {
    assert kind + "/" + subtype + params == kind + "/" + (subtype + params);
    ExtensionAfterLastSlash(kind, subtype + params);
    BeforeFirstExact(subtype, params, ';');
  }

  /** The time-stamped name built when the URL gives no usable name. */
  function FallbackName(timestamp: string, contentType: string): (name: string)
    ensures "image_" <= name
    ensures '/' !in timestamp ==> '/' !in name
  {
    assert '/' !in "image_" && '/' !in ".";
    "image_" + (timestamp + "." + Extension(contentType))
  }

  /** `get_valid_filename(url, content_type)` with the URL's path and the
      formatted clock reading passed in: the result is always made of safe
      characters only. */
  function ResolveFilename(urlPath: string, contentType: string, timestamp: string): (name: string)
    ensures forall i :: 0 <= i < |name| ==> IsSafeChar(name[i])
  {
    var base := BaseName(urlPath);
    var chosen := if IsUsableName(base) then base else FallbackName(timestamp, contentType);
    SanitizeSafe(BeforeFirst(chosen, '?'));
    Sanitize(BeforeFirst(chosen, '?'))
  }

  /** A usable URL name is kept (cut at `?` and sanitised), whatever the
      content type and the clock say, and is at most 100 characters long. */
  lemma ResolveFromUrl(urlPath: string, contentType: string, timestamp: string,
                       otherType: string, otherTime: string)
    requires IsUsableName(BaseName(urlPath))
    ensures ResolveFilename(urlPath, contentType, timestamp)
         == Sanitize(BeforeFirst(BaseName(urlPath), '?'))
    ensures ResolveFilename(urlPath, contentType, timestamp)
         == ResolveFilename(urlPath, otherType, otherTime)
    ensures |ResolveFilename(urlPath, contentType, timestamp)| <= MaxNameLength
  {
  }

  /** A usable last path segment made of safe characters and free of `?`
      is taken unchanged as the file name. */
  lemma ResolveKeepsCleanName(front: string, name: string, contentType: string, timestamp: string)
    requires '/' !in name && IsUsableName(name)
    requires forall i :: 0 <= i < |name| ==> IsSafeChar(name[i]) && name[i] != '?'
    ensures ResolveFilename(front + "/" + name, contentType, timestamp) == name
  {
    AfterLastExact(front, name, '/');
    assert front + "/" + name == front + ['/'] + name;
    BeforeFirstExact(name, [], '?');
    assert name + [] == name;
    SanitizeSafe(name);
    ResolveFromUrl(front + "/" + name, contentType, timestamp, contentType, timestamp);
  }

  /** Sanitising keeps any prefix that is already safe. */
  lemma SanitizeKeepsSafePrefix(p: string, s: string)
    requires p <= s
    requires forall i :: 0 <= i < |p| ==> IsSafeChar(p[i])
    ensures p <= Sanitize(s)
  {
    assert forall i :: 0 <= i < |p| ==> Sanitize(s)[i] == p[i];
  }

  /** The fallback branch of `ResolveFilename`. */
  lemma ResolveFallbackUnfold(urlPath: string, contentType: string, timestamp: string)
    requires !IsUsableName(BaseName(urlPath))
    ensures ResolveFilename(urlPath, contentType, timestamp)
         == Sanitize(BeforeFirst(FallbackName(timestamp, contentType), '?'))
  {
  }

  /** Cutting and sanitising a fallback name leaves its `image_` in front. */
  lemma FallbackKeepsPrefix(rest: string)
    ensures "image_" <= Sanitize(BeforeFirst("image_" + rest, '?'))
  {
    BeforeFirstKeepsPrefix("image_", rest, '?');
    SanitizeKeepsSafePrefix("image_", BeforeFirst("image_" + rest, '?'));
  }

  /** Otherwise the name is the fallback name, cut at `?` and sanitised; it
      always starts with `image_`. */
  lemma ResolveFallback(urlPath: string, contentType: string, timestamp: string)
    requires !IsUsableName(BaseName(urlPath))
    ensures ResolveFilename(urlPath, contentType, timestamp)
         == Sanitize(BeforeFirst(FallbackName(timestamp, contentType), '?'))
    ensures "image_" <= ResolveFilename(urlPath, contentType, timestamp)
  {
    ResolveFallbackUnfold(urlPath, contentType, timestamp);
    FallbackKeepsPrefix(timestamp + "." + Extension(contentType));
  }

  /** The shape `strftime("%Y%m%d_%H%M%S")` gives for a four-digit year. */
  predicate IsTimestamp(ts: string)
  {
    |ts| == 15 && ts[8] == '_' && forall i :: 0 <= i < 15 && i != 8 ==> '0' <= ts[i] <= '9'
  }

  /** A time stamp followed by any `?`-free extension passes the cut at `?`
      whole, and sanitising touches only the extension. */
  lemma FallbackExact(timestamp: string, ext: string)
    requires IsTimestamp(timestamp)
    requires '?' !in ext
    ensures Sanitize(BeforeFirst("image_" + (timestamp + "." + ext), '?'))
         == "image_" + timestamp + "." + Sanitize(ext)
  {
    var head := "image_" + timestamp + ".";
    assert "image_" + (timestamp + "." + ext) == head + ext;
    forall i | 0 <= i < |head| ensures head[i] != '?' && IsSafeChar(head[i]) {
      if 6 <= i < 21 {
        assert head[i] == timestamp[i - 6];
      }
    }
    assert '?' !in head + ext;
    BeforeFirstExact(head + ext, [], '?');
    assert head + ext + [] == head + ext;
    SanitizeAppend(head, ext);
    SanitizeSafe(head);
  }

  /** With a real time stamp and an extension free of `?`, the fallback name
      is exactly `image_<timestamp>.<extension>`, the extension sanitised. */
  lemma ResolveFallbackExact(urlPath: string, contentType: string, timestamp: string)
    requires !IsUsableName(BaseName(urlPath))
    requires IsTimestamp(timestamp)
    requires '?' !in Extension(contentType)
    ensures ResolveFilename(urlPath, contentType, timestamp)
         == "image_" + timestamp + "." + Sanitize(Extension(contentType))
  {
    ResolveFallbackUnfold(urlPath, contentType, timestamp);
    FallbackExact(timestamp, Extension(contentType));
  }

  /** A safe character is neither a separator the name logic looks for nor
      white space. */
  lemma SafeCharPlain(c: char)
    requires IsSafeChar(c)
    ensures c != '/' && c != ';' && c != '?' && !IsSpace(c)
  {
  }

  /** A subtype made of safe characters is its own extension text: it has
      no separator, no `?`, no white space to strip and nothing to sanitise. */
  lemma SafeSubtype(subtype: string)
    requires forall i :: 0 <= i < |subtype| ==> IsSafeChar(subtype[i])
    ensures '/' !in subtype && ';' !in subtype && '?' !in subtype
    ensures Strip(subtype) == subtype && Sanitize(subtype) == subtype
  {
    forall i | 0 <= i < |subtype|
      ensures subtype[i] != '/' && subtype[i] != ';' && subtype[i] != '?' && !IsSpace(subtype[i])
    {
      SafeCharPlain(subtype[i]);
    }
    StripUntrimmed(subtype);
    SanitizeSafe(subtype);
  }

  /** A URL path without a usable name, served as `kind/subtype` with a
      subtype made of safe characters, is saved as
      `image_<timestamp>.<subtype>`. */
  lemma ResolveFallbackMediaType(urlPath: string, kind: string, subtype: string, timestamp: string)
    requires !IsUsableName(BaseName(urlPath))
    requires IsTimestamp(timestamp)
    requires forall i :: 0 <= i < |subtype| ==> IsSafeChar(subtype[i])
    ensures ResolveFilename(urlPath, kind + "/" + subtype, timestamp) == "image_" + timestamp + "." + subtype
  {
    SafeSubtype(subtype);
    ExtensionOfMediaType(kind, subtype, []);
    assert kind + "/" + subtype + [] == kind + "/" + subtype;
    ResolveFallbackExact(urlPath, kind + "/" + subtype, timestamp);
  }

  /** The path of a parsed URL never holds `?` (the query is split off), and
      then the resolved name is never empty. */
  lemma ResolveNonEmpty(urlPath: string, contentType: string, timestamp: string)
    requires '?' !in urlPath
    ensures ResolveFilename(urlPath, contentType, timestamp) != []
  {
    var base := BaseName(urlPath);
    if IsUsableName(base) {
      assert forall c :: c in base ==> c in urlPath;
      BeforeFirstExact(base, [], '?');
      assert base + [] == base;
    } else {
      ResolveFallback(urlPath, contentType, timestamp);
    }
  }
}

=== FILE: text.dfy ===
/** The few operations of Python's `str` that the downloader relies on
    (`strip`, `lower`, `split(c)[0]`, `split(c)[-1]`, `in`, integer
    formatting), each characterised by what its result means. */
module Text {

  /** Python's `str.isspace()`: the characters `str.strip()` removes. */
  predicate IsSpace(c: char)
  {
    var n := c as int;
    || n == 0x20 || 0x09 <= n <= 0x0D || 0x1C <= n <= 0x1F
    || n == 0x85 || n == 0xA0 || n == 0x1680 || 0x2000 <= n <= 0x200A
    || n == 0x2028 || n == 0x2029 || n == 0x202F || n == 0x205F || n == 0x3000
  }

  /** The index of the first character at or after `i` that is not white
      space (`|s|` when there is none): where `s.lstrip()` starts. */
  function SkipSpace(s: string, i: nat): (j: nat)
    requires i <= |s|
    ensures i <= j <= |s|
    ensures forall k :: i <= k < j ==> IsSpace(s[k])
    ensures j < |s| ==> !IsSpace(s[j])
    decreases |s| - i
  {
    if i < |s| && IsSpace(s[i]) then SkipSpace(s, i + 1) else i
  }

  /** The index just past the last character before `j` that is not white
      space, but not below `lo`: where `s.rstrip()` ends. */
  function SkipSpaceBack(s: string, lo: nat, j: nat): (e: nat)
    requires lo <= j <= |s|
    ensures lo <= e <= j
    ensures forall k :: e <= k < j ==> IsSpace(s[k])
    ensures lo < e ==> !IsSpace(s[e - 1])
    decreases j - lo
  {
    if lo < j && IsSpace(s[j - 1]) then SkipSpaceBack(s, lo, j - 1) else j
  }

  /** `s` neither starts nor ends with white space. */
  predicate Trimmed(s: string)
  {
    s != [] ==> !IsSpace(s[0]) && !IsSpace(s[|s| - 1])
  }

  /** `s.strip()`: the slice of `s` left when the white space at both ends
      is removed (`StripSlice`). */
  function Strip(s: string): (r: string)
    ensures Trimmed(r)
  {
    var i := SkipSpace(s, 0);
    s[i..SkipSpaceBack(s, i, |s|)]
  }

  /** What `Strip` removes is white space at the two ends and nothing else:
      the result is a slice of `s`, and everything before it and after it
      is white space. */
  lemma StripSlice(s: string)
    ensures var i := SkipSpace(s, 0);
      && i + |Strip(s)| <= |s| && Strip(s) == s[i..i + |Strip(s)|]
      && (forall k :: 0 <= k < i ==> IsSpace(s[k]))
      && (forall k :: i + |Strip(s)| <= k < |s| ==> IsSpace(s[k]))
  {
  }

  /** Stripping adds no character: one missing from `s` is missing from the
      result. */
  lemma StripFree(s: string, c: char)
    requires c !in s
    ensures c !in Strip(s)
  {
    StripSlice(s);
    var i := SkipSpace(s, 0);
    var r := Strip(s);
    forall k | 0 <= k < |r| ensures r[k] != c {
      assert r[k] == s[i + k];
    }
  }

  /** `Strip` is the only way to cut white space off both ends: any slice
      of `s` with only white space outside it, and no white space at its
      own ends, is `Strip(s)`. */
  lemma StripTrim(s: string, i: nat, j: nat)
    requires i <= j <= |s|
    requires forall k :: 0 <= k < i ==> IsSpace(s[k])
    requires forall k :: j <= k < |s| ==> IsSpace(s[k])
    requires i < j ==> !IsSpace(s[i]) && !IsSpace(s[j - 1])
    ensures Strip(s) == s[i..j]
  {
    var a := SkipSpace(s, 0);
    var b := SkipSpaceBack(s, a, |s|);
    if i < j {
      assert a == i;
      assert b == j;
    } else {
      assert a == |s| || b == a;
    }
  }

  /** `Strip` gives the empty string exactly for blank input. */
  lemma StripBlank(s: string)
    ensures Strip(s) == [] <==> forall i :: 0 <= i < |s| ==> IsSpace(s[i])
  {
  }

  /** `Strip` leaves alone a string without white space at either end. */
  lemma StripUntrimmed(s: string)
    requires Trimmed(s)
    ensures Strip(s) == s
  {
  }

  /** Python's `str.lower()` on one character, for the ASCII letters. */
  function LowerChar(c: char): char
  {
    if 'A' <= c <= 'Z' then (c as int - 'A' as int + 'a' as int) as char else c
  }

  /** `s.lower()`: the same characters with every ASCII capital replaced by
      its small letter. */
  function Lower(s: string): (r: string)
    ensures |r| == |s|
    ensures forall i :: 0 <= i < |s| ==> r[i] == LowerChar(s[i])
  {
    if s == [] then [] else [LowerChar(s[0])] + Lower(s[1..])
  }

  /** Lower-casing leaves a string without capital letters unchanged. */
  lemma LowerUnchanged(s: string)
    requires forall i :: 0 <= i < |s| ==> !('A' <= s[i] <= 'Z')
    ensures Lower(s) == s
  {
    assert forall i :: 0 <= i < |s| ==> Lower(s)[i] == s[i];
  }

  /** The only answers whose lower-case form is `y` are `y` and `Y`. */
  lemma LowerIsY(s: string)
    ensures Lower(s) == "y" <==> s == "y" || s == "Y"
  {
    if Lower(s) == "y" {
      assert |s| == 1 && LowerChar(s[0]) == 'y';
      assert s == [s[0]];
    }
    if s == "Y" {
      assert Lower(s)[0] == 'y';
    }
  }

  /** `s.split(c)[0]`: the part of `s` before the first `c`, or all of `s`. */
  function BeforeFirst(s: string, c: char): (r: string)
    ensures r <= s
    ensures c !in r
    ensures |r| < |s| ==> s[|r|] == c
  {
    if s == [] || s[0] == c then [] else [s[0]] + BeforeFirst(s[1..], c)
  }

  /** Cutting at a separator that comes after a separator-free prefix keeps
      that prefix whole. */
  lemma BeforeFirstKeepsPrefix(a: string, b: string, c: char)
    requires c !in a
    ensures a <= BeforeFirst(a + b, c)
  {
  }

  /** Cutting a string that is a separator-free part followed by nothing or
      by the separator gives that part. */
  lemma BeforeFirstExact(a: string, b: string, c: char)
    requires c !in a
    requires b == [] || b[0] == c
    ensures BeforeFirst(a + b, c) == a
  {
    BeforeFirstKeepsPrefix(a, b, c);
    var r := BeforeFirst(a + b, c);
    if b != [] {
      assert (a + b)[|a|] == c;
    }
  }

  /** A prefix of a string without `c` has no `c` either. */
  lemma PrefixFree(s: string, p: string, c: char)
    requires p <= s && c !in s
    ensures c !in p
  {
    assert p == s[..|p|];
  }

  /** Index of the last `c` in `s`, -1 when there is none (`str.rfind`). */
  function LastIndexOf(s: string, c: char): (r: int)
    ensures -1 <= r < |s|
    ensures r >= 0 ==> s[r] == c
    ensures forall i :: r < i < |s| ==> s[i] != c
  {
    if s == [] then -1
    else if s[|s| - 1] == c then |s| - 1
    else LastIndexOf(s[..|s| - 1], c)
  }

  /** The two properties of `LastIndexOf` determine it. */
  lemma LastIndexOfUnique(s: string, c: char, k: int)
    requires -1 <= k < |s|
    requires k >= 0 ==> s[k] == c
    requires forall i :: k < i < |s| ==> s[i] != c
    ensures LastIndexOf(s, c) == k
  {
  }

  /** Appending text without `c` does not move the last `c`. */
  lemma LastIndexOfAppendFree(s: string, t: string, c: char)
    requires c !in t
    ensures LastIndexOf(s + t, c) == LastIndexOf(s, c)
  {
    var st := s + t;
    var k := LastIndexOf(s, c);
    forall i | k < i < |st| ensures st[i] != c {
      if i >= |s| {
        assert st[i] == t[i - |s|];
      } else {
        assert st[i] == s[i];
      }
    }
    LastIndexOfUnique(st, c, k);
  }

  /** Appending text that holds a `c` moves the last `c` into it. */
  lemma {:induction false} LastIndexOfAppendHit(s: string, t: string, c: char)
    requires c in t
    ensures LastIndexOf(s + t, c) == |s| + LastIndexOf(t, c)
  {
    var st := s + t;
    assert st[|st| - 1] == t[|t| - 1];
    if t[|t| - 1] != c {
      var u := t[..|t| - 1];
      assert t == u + [t[|t| - 1]];
      assert st[..|st| - 1] == s + u;
      LastIndexOfAppendHit(s, u, c);
    }
  }

  /** `s.split(c)[-1]`: the part of `s` after the last `c`, or all of `s`. */
  function AfterLast(s: string, c: char): (r: string)
    ensures |r| <= |s| && r == s[|s| - |r|..]
    ensures c !in r
    ensures |r| < |s| ==> s[|s| - |r| - 1] == c
  {
    s[LastIndexOf(s, c) + 1..]
  }

  /** Whatever precedes the last separator, the part after it is what
      `AfterLast` gives. */
  lemma AfterLastExact(a: string, b: string, c: char)
    requires c !in b
    ensures AfterLast(a + [c] + b, c) == b
  {
    LastIndexOfAppendHit(a, [c], c);
    LastIndexOfAppendFree(a + [c], b, c);
    assert (a + [c] + b)[|a| + 1..] == b;
  }

  /** The decimal digit for `d`. */
  function DigitChar(d: nat): (c: char)
    requires d < 10
    ensures '0' <= c <= '9'
  {
    (d + '0' as int) as char
  }

  /** The value of a decimal digit (0 for any other character). */
  function DigitValue(c: char): nat
  {
    if '0' <= c <= '9' then c as int - '0' as int else 0
  }

  /** Python's `str(n)` / f-string formatting of a non-negative integer:
      decimal digits without leading zeros. */
  function NatToString(n: nat): (s: string)
    ensures s != []
    ensures forall i :: 0 <= i < |s| ==> '0' <= s[i] <= '9'
    ensures s[0] == '0' ==> n == 0
    decreases n
  {
    if n < 10 then [DigitChar(n)] else NatToString(n / 10) + [DigitChar(n % 10)]
  }

  /** Reading decimal digits back as a number, the inverse of `NatToString`. */
  function ParseNat(s: string): nat
  {
    if s == [] then 0 else ParseNat(s[..|s| - 1]) * 10 + DigitValue(s[|s| - 1])
  }

  /** Formatting a number and reading it back gives the number. */
  lemma {:induction false} ParseNatToString(n: nat)
    ensures ParseNat(NatToString(n)) == n
    decreases n
  {
    var s := NatToString(n);
    if n >= 10 {
      ParseNatToString(n / 10);
      assert s[..|s| - 1] == NatToString(n / 10);
    }
  }

  /** Different numbers are formatted differently. */
  lemma NatToStringInjective(m: nat, n: nat)
    requires NatToString(m) == NatToString(n)
    ensures m == n
  {
    ParseNatToString(m);
    ParseNatToString(n);
  }
}
